=== FILE: README.md ===
# Weather data system: a verified model of its core

The application has two parts:

- A FastAPI backend (`backend/main.py`) stores weather requests in an in-memory dictionary. It offers four endpoints: create, get by id, list newest first, and delete by id. It validates request bodies with a pydantic model and seeds a sample record into an empty store at start-up.
- Three React components make up the browser side:
  - a request form with its own validator and submit state machine;
  - a lookup panel that fetches, shows and deletes one record;
  - a recent-records list that loads the listing and deletes entries.

The Dafny project models both parts as pure functions over immutable datatypes. The backend's dictionary becomes a `map` together with the insertion order of its keys, which Python keeps and the listing's stable sort exposes. Each React event handler becomes one transition from (component state, abstract HTTP outcome) to component state. An HTTP outcome is one of:

- a 2xx answer with a body;
- a 2xx answer whose body does not parse;
- a non-2xx answer with an optional `detail`;
- a non-2xx answer whose body does not parse;
- a transport failure.

Modules:

| module | file | what it holds |
|---|---|---|
| `Common` | common.dfy | `Option`, `Result`, the HTTP outcome, the client's `detail \|\| fallback` |
| `Text` | text.dfy | Python `str.strip()` and JavaScript `trim()` with their distinct whitespace sets, ASCII lower-casing, substring search, decimal rendering |
| `Records` | records.dfy | the stored record and its weather data |
| `Ordering` | ordering.dfy | Python string order and the stable newest-first sort |
| `RequestValidation` | request_validation.dfy | the `WeatherRequest` field validators |
| `WeatherStore` | weather_store.dfy | the store, the four endpoints, the provider call's outcomes, seeding |
| `WeatherForm` | weather_form.dfy | `validateForm`, `isFormValid` and the form's handlers |
| `WeatherLookup` | weather_lookup.dfy | lookup, delete, UV colour and weather icon |
| `RecentWeather` | recent_weather.dfy | loading the list and deleting from it |
| `EndToEnd` | end_to_end.dfy | client transitions fed with the server model's replies; the two validators compared |

Inputs the application takes from outside become parameters:

- `uuid4()`, `datetime.now().isoformat()` and the WeatherStack call, whose outcome is a `Provider` value;
- `strptime`, which is a `dateOk` predicate;
- JavaScript `Date` parsing and formatting, which is a `DateEnv` of three functions.

The 404 detail for an unknown id is "Weather data with ID '<id>' not found" (`backend/main.py:246`). "Weather data not found" is only the lookup panel's fallback for a failure body without `detail` (`weather-lookup.tsx:79`). `EndToEnd.LookupOfUnknownId` shows that the server's text is the one displayed.

## Model

| member | source | states |
|---|---|---|
| Common.DetailOr | frontend/src/components/weather-form.tsx:198 | `detail \|\| fallback`: the detail when it is a non-empty string, the fallback otherwise |
| Text.IsSpace | backend/main.py:98-102 | the whitespace `str.strip()` removes in Python and, for the JavaScript flavour, the whitespace `trim()` removes (weather-form.tsx:68): both share the ASCII and Unicode space separators; Python alone adds U+001C to U+001F and U+0085, JavaScript alone adds U+FEFF |
| Text.Strip | backend/main.py:98-102 | stripping never lengthens; the result neither starts nor ends with whitespace; it is empty exactly when the input is all whitespace |
| Text.StripIsInfix | backend/main.py:102 | the stripped text is an infix of the input with only whitespace cut from either side |
| Text.StripIdempotent | backend/main.py:102 | stripping a stripped string changes nothing |
| Text.StripAgrees | frontend/src/components/weather-form.tsx:68-70 | on text with no character that only one runtime treats as whitespace, JavaScript `trim()` and Python `strip()` agree |
| Text.LowerIdempotent | frontend/src/components/weather-lookup.tsx:138 | lower-casing twice is lower-casing once |
| Text.MissingCharNotContained | frontend/src/components/weather-lookup.tsx:139-141 | text lacking one of a keyword's characters does not contain the keyword |
| Text.Decimal | frontend/src/components/recent-weather-data.tsx:50 | `${n}` renders a non-empty run of decimal digits with no leading zero unless the number is 0 |
| Text.DecimalRoundTrip | frontend/src/components/recent-weather-data.tsx:50 | the decimal text of a status code reads back as that number |
| Ordering.LexLe | backend/main.py:257 | Python's `str` comparison: code-point order, first difference decides, a prefix sorts first |
| Ordering.SortNewestFirst | backend/main.py:257 | the sorted list is a permutation of its input, with `created_at` non-increasing under Python string order |
| Ordering.SortIsStable | backend/main.py:257 | records with equal `created_at` keep their input order |
| Ordering.UntimedRecordsLast | backend/main.py:257 | a record without `created_at` sorts as "", so only untimed records (or records with an empty stamp) follow it |
| RequestValidation.ValidateLocation | backend/main.py:96-102 | a blank location gets "Location cannot be empty"; a stripped length of 1 gets "Location must be at least 2 characters"; otherwise the stripped text passes and replaces the input |
| RequestValidation.ValidateLocationIdempotent | backend/main.py:102 | validating an accepted location's stored value accepts it unchanged |
| RequestValidation.ValidateNotes | backend/main.py:104-108 | notes pass unchanged when absent or at most 500 characters long; longer notes get "Notes cannot exceed 500 characters" |
| RequestValidation.ValidateRequest | backend/main.py:83-108 | a request passes exactly when the date parses and both validators pass; the accepted request carries the stripped location |
| RequestValidation.ValidateRequestErrors | backend/main.py:88-108 | a refused request lists one to three entries in field order: a date entry exactly when the date fails, always with "Date must be in YYYY-MM-DD format", and each failing validator's own message |
| WeatherStore.Put | backend/main.py:208-215 | assigning a key keeps the store consistent; a new key goes last in insertion order, an existing one keeps its place |
| WeatherStore.Remove | backend/main.py:271 | deleting a key removes exactly that key and keeps the store consistent; the remaining keys keep their insertion order, the key being cut out of the order at its position |
| WeatherStore.GetWeatherData | backend/main.py:243-249 | a present id yields its stored record; an absent one yields 404 with "Weather data with ID '<id>' not found" |
| WeatherStore.ConformsToResponseModel | backend/main.py:114-120 | `WeatherDataResponse` accepts a stored record exactly when its `id`, `notes` and `created_at` are strings; `date`, `location` and `weather_data` always have the demanded types in the model, so only those three are checked |
| WeatherStore.GetEndpoint | backend/main.py:238-249 | the record is sent exactly when it has `id`, `notes` and `created_at` as the response model demands; a stored record that lacks one is answered with a plain-text 500; an absent id is still 404 |
| WeatherStore.ListWeatherData | backend/main.py:256-258 | the listing holds every stored record once and nothing else, newest `created_at` first |
| WeatherStore.ListKeepsInsertionOrderOfTies | backend/main.py:256-257 | records with the same `created_at` are listed in the order they were stored |
| WeatherStore.ListEndpoint | backend/main.py:251-258 | the list is sent exactly when every stored record fits the response model; otherwise the answer is a plain-text 500 |
| WeatherStore.DeleteWeatherData | backend/main.py:265-274 | a present id is removed with a success message, the other keys keeping their insertion order; an absent id yields 404 and the store is unchanged |
| WeatherStore.DeleteThenGet | backend/main.py:265-274 | after deleting an id, getting it yields 404 and every other id resolves as before |
| WeatherStore.ObtainWeather | backend/main.py:131-202 | weather data is obtained exactly without an API key or from a 200 answer carrying an observation; a timeout is raised exactly on timeout; a `requests` failure exactly when the call fails or the body is not JSON; a non-200 status raises 503 "Weather service is currently unavailable"; an error payload raises 500 "Weather service configuration error" when its info (default "Unknown error") mentions "API key" and 400 "Location not found: " with the info otherwise; a body whose data cannot be extracted raises a non-HTTP exception; the data obtained is the mock data without a key and the provider's observation otherwise |
| WeatherStore.Translate | backend/main.py:222-236 | a timeout gives 504, a `requests` failure 503, every other exception 500 with a detail starting "Internal server error: " |
| WeatherStore.ErrorPayloadStatus | backend/main.py:172-183 | a provider error payload raises 500 when its info mentions "API key" and 400 otherwise |
| WeatherStore.ErrorPayloadWithoutInfo | backend/main.py:173 | a payload without info raises 400 "Location not found: Unknown error" |
| WeatherStore.CreateWeatherRequest | backend/main.py:131-236 | a create succeeds exactly when weather data is obtained, returning the fresh id and storing the new record under it; every failure leaves the store unchanged |
| WeatherStore.CreateAddsOneRecord | backend/main.py:204-215 | a successful create adds exactly one new key, last in order, whose record's `id` is that key; other entries are unchanged |
| WeatherStore.CreateTimeoutIs504 | backend/main.py:222-226 | a provider timeout is answered with 504 "Weather service request timed out" |
| WeatherStore.CreateRequestFailureIs503 | backend/main.py:227-231 | any other `requests` failure, an unparseable provider body included, is 503 with "Weather service error: " and the failure's text |
| WeatherStore.CreateProviderStatusIs500 | backend/main.py:164-168 | a provider status other than 200 raises 503 inside the `try`; the generic handler re-raises it as 500 "Internal server error: 503: Weather service is currently unavailable" |
| WeatherStore.CreateOtherFailuresAre500 | backend/main.py:232-236 | every failure that is neither a timeout nor a `requests` failure surfaces as 500 with a detail starting "Internal server error: " |
| WeatherStore.PostWeather | backend/main.py:122-236 | a validation failure is a 422 carrying the field errors; a valid request gets the create handler's answer, a 201 with the fresh id exactly when weather data is obtained; only a successful create changes the store, and its record carries the stripped location |
| WeatherStore.SeedAsWritten | backend/main.py:58-79 | an empty store receives the sample under "sample-123"; a non-empty store is unchanged |
| WeatherStore.Seed | backend/main.py:58-79 | the same seeding, with the sample's `id` filled in |
| WeatherStore.SeedAsWrittenIsUnservable | backend/main.py:59-79 | the sample as written has no `id`, so getting "sample-123" and listing both fail the response model |
| WeatherStore.SeedIsServable | backend/main.py:58-79 | the corrected seed keeps every record sendable, and the sample can be looked up |
| WeatherStore.CreateKeepsServable | backend/main.py:208-215 | a created record with string notes is stored under its own id and fits the response model |
| WeatherStore.DeleteKeepsServable | backend/main.py:271 | deleting keeps every remaining record sendable |
| WeatherForm.ValidateForm | frontend/src/components/weather-form.tsx:54-80 | an empty date gets "Date is required" and a date that does not parse "Invalid date format"; the date passes exactly when it is non-empty and parses; the location passes exactly when its trimmed length is at least 2, with "Location is required" exactly for blank input; notes fail exactly above 500 characters |
| WeatherForm.IsFormValid | frontend/src/components/weather-form.tsx:211-213 | the submit button is enabled when the trimmed location has at least 2 characters, the date text is non-empty, and the notes are empty or at most 500 characters |
| WeatherForm.ValidFormIsSubmittable | frontend/src/components/weather-form.tsx:211-213 | a form the validator accepts has its submit button enabled |
| WeatherForm.SubmittableFormMayBeInvalid | frontend/src/components/weather-form.tsx:211-213 | the converse fails: an unparseable date leaves the button enabled while the validator refuses it |
| WeatherForm.FormValidAgreesOffDate | frontend/src/components/weather-form.tsx:211-213 | for a date that parses, the button and the validator agree |
| WeatherForm.InputChange | frontend/src/components/weather-form.tsx:123-136 | typing sets only the named field and clears only that field's error; everything else is untouched |
| WeatherForm.InputChangesCommute | frontend/src/components/weather-form.tsx:126-135 | edits to two different fields commute |
| WeatherForm.InputChangeLastWins | frontend/src/components/weather-form.tsx:126-135 | two edits of one field leave what the last one gives |
| WeatherForm.InputChangeKeepsDateInSync | frontend/src/components/weather-form.tsx:126-130 | typing into a text field keeps the API date equal to the picked date's formatting |
| WeatherForm.DateInputChange | frontend/src/components/weather-form.tsx:138-152 | the date box always shows the typed text; text that parses also becomes the picked date and the picker's month, sets the API date and clears the date error; nothing else changes, the picker's open state included |
| WeatherForm.DateInputChangeKeepsDateInSync | frontend/src/components/weather-form.tsx:142-151 | typing a date keeps the API date in step with the picked date |
| WeatherForm.DateChange | frontend/src/components/weather-form.tsx:108-121 | picking sets the date, its display text and its API text and closes the picker; only an actual date clears the date error; the picker's month, the submitting flag, the last result and the text fields are unchanged |
| WeatherForm.InitialIsInSync | frontend/src/components/weather-form.tsx:84-98 | the first render starts with the API date in step with the picked date |
| WeatherForm.SubmitStart | frontend/src/components/weather-form.tsx:157-165 | an invalid form only shows its errors and sends nothing; a valid one enters the submitting state, clears the result and sends its data |
| WeatherForm.SubmitFinish | frontend/src/components/weather-form.tsx:176-208 | success records the id and resets the form to today (picked date, display text and API date) with empty text and no errors, leaving the picker's month and open state alone; a failure shows the detail or "Failed to submit weather request"; anything else shows the network message; failures change nothing but the result and the submitting flag, which always ends |
| WeatherForm.Submit | frontend/src/components/weather-form.tsx:154-209 | an invalid form gets exactly the validator's errors and nothing else changes; a valid one ends with a result; success resets the picked date, display text and form data to today; failures keep everything the user entered, the date box and picked date included, and change only the result and the submitting flag |
| WeatherForm.SubmitKeepsDateInSync | frontend/src/components/weather-form.tsx:186-193 | submitting keeps the API date in step with the picked date |
| WeatherForm.InvalidSubmitIgnoresOutcome | frontend/src/components/weather-form.tsx:158-162 | a form the validator refuses consumes no server outcome |
| WeatherLookup.LookupStart | frontend/src/components/weather-lookup.tsx:63-69 | a blank id sends nothing and changes nothing; otherwise loading starts, error and record are cleared and the trimmed id is requested |
| WeatherLookup.Lookup | frontend/src/components/weather-lookup.tsx:63-86 | loading ends; a record is shown exactly on success, and an error exactly otherwise: the detail or "Weather data not found" for a readable failure, and the network message for a transport failure or an unreadable body |
| WeatherLookup.LookupIdempotent | frontend/src/components/weather-lookup.tsx:63-86 | repeating a lookup against the same answer shows the same thing |
| WeatherLookup.DeleteShown | frontend/src/components/weather-lookup.tsx:88-106 | with no record shown nothing happens; success clears record, id box and error; any non-2xx shows "Failed to delete weather data"; a transport failure shows its own network message |
| WeatherLookup.FreshPanelSendsNothing | frontend/src/components/weather-lookup.tsx:57-69 | on first render the id box is empty and no record is shown, so neither lookup nor delete sends a request or changes anything |
| WeatherLookup.DeleteIgnoresDetail | frontend/src/components/weather-lookup.tsx:100-102 | neither the server's status nor its detail changes what a failed delete shows |
| WeatherLookup.UvIndexColour | frontend/src/components/weather-lookup.tsx:145-151 | the colour's severity is the number of the bounds 2, 5, 7 and 10 that the index exceeds |
| WeatherLookup.UvColourMonotone | frontend/src/components/weather-lookup.tsx:145-151 | a higher UV index never gets a milder colour |
| WeatherLookup.UvColourBands | frontend/src/components/weather-lookup.tsx:145-151 | the colours are exactly the bands up to 2, up to 5, up to 7, up to 10, and above 10 |
| WeatherLookup.WeatherIconFor | frontend/src/components/weather-lookup.tsx:137-143 | sun exactly when the lower-cased text has "sunny" or "clear"; cloud exactly when it has "cloud" and neither of those; droplets exactly when it has "rain" and none of those; the thermometer otherwise |
| WeatherLookup.WeatherIconIgnoresCase | frontend/src/components/weather-lookup.tsx:138 | the icon does not depend on letter case |
| WeatherLookup.MockDescriptionIcons | backend/main.py:140 | the five mock descriptions get sun, sun, cloud, cloud and droplets |
| WeatherLookup.CloudBeatsRain | frontend/src/components/weather-lookup.tsx:140-141 | "Rain clouds" gets the cloud: "cloud" outranks "rain" |
| RecentWeather.FirstLoad | frontend/src/components/recent-weather-data.tsx:32-63 | the list mounts empty and loading; its first load shows the server's records on success and stays empty with an error otherwise |
| RecentWeather.Fetch | frontend/src/components/recent-weather-data.tsx:36-59 | loading ends; success replaces the list and clears the error; any failure keeps the list and shows the detail, "Failed to fetch recent weather data (Status: N)", or the network message |
| RecentWeather.FetchForgetsPreviousStatus | frontend/src/components/recent-weather-data.tsx:37-38 | what a load shows does not depend on the earlier error or loading flag |
| RecentWeather.UnparseableBodyIsEmptyObject | frontend/src/components/recent-weather-data.tsx:49-50 | a failure body that does not parse reads as one without `detail` |
| RecentWeather.Delete | frontend/src/components/recent-weather-data.tsx:65-85 | success clears the error and reloads the list, with no local removal; failure shows the detail, "Failed to delete weather data (Status: N)", or the network message |
| RecentWeather.FailedDeleteKeepsList | frontend/src/components/recent-weather-data.tsx:75-83 | a failed delete leaves the list as it was and shows an error |
| RecentWeather.FetchFailedMessageNamesStatus | frontend/src/components/recent-weather-data.tsx:50 | two different statuses give two different status-coded messages |
| EndToEnd.DeletedRecordLeavesList | frontend/src/components/recent-weather-data.tsx:71-74 | after the server deletes id k and the list reloads, no listed record has id k, the list is one shorter, and no error shows |
| EndToEnd.AsOutcome | backend/main.py:114-123 | a success reaches `fetch` as a 2xx with its value, an HTTPException as a failure with its JSON `detail`; the plain-text 500 of a refused response model lacks CORS headers, so a cross-origin `fetch` rejects as on a network failure while a same-origin one reads an unparseable 500 |
| EndToEnd.LookupOfSeededSampleAsWritten | frontend/src/components/weather-lookup.tsx:70-84 | looking up "sample-123" in the store as seeded shows the network message and no record |
| EndToEnd.LookupOfUnknownId | frontend/src/components/weather-lookup.tsx:77-79 | looking up an unknown id shows the server's "Weather data with ID '<id>' not found" and no record |
| EndToEnd.CreatedRecordCanBeLookedUp | backend/main.py:208-220 | in any store, the seeded one as written included, the id a create returns can be looked up, showing that id and the stripped location |
| EndToEnd.LocationRulesAgree | frontend/src/components/weather-form.tsx:67-72 | on a location without disputed whitespace, the form accepts it exactly when the request model does |
| EndToEnd.SeparatorPassesOnlyTheForm | frontend/src/components/weather-form.tsx:68-72 | "a" followed by U+001C passes the form but the request model finds it too short |
| EndToEnd.ByteOrderMarkPassesOnlyTheServer | backend/main.py:98-102 | "a" followed by U+FEFF fails the form but passes the request model unchanged |
| EndToEnd.NotesRulesAgree | frontend/src/components/weather-form.tsx:75-77 | the two notes rules accept the same notes |
| EndToEnd.AcceptedFormPassesServer | frontend/src/components/weather-form.tsx:173 | data the form accepts also passes the request model, given undisputed whitespace and a date `strptime` accepts |

## Left out

- `frontend/src/app/page.tsx`: layout and a theme toggle only.
- JSX rendering, CSS classes, icons as components, and the copy-to-clipboard button with its fallback and timer: these are browser side effects. `getWeatherIcon` returns an enum instead of an element.
- JavaScript `Date`: `new Date(text)`, `toLocaleDateString` and `toISOString` depend on locale and time zone, so they are the functions of a `DateEnv`. The calendar's `onMonthChange` setter and the picker's open toggle only set one field each and are not modelled.
- Python `strptime` (the date validator) is the `dateOk` parameter.
- The WeatherStack HTTP call, the random mock data, `uuid4()` and `datetime.now()` become parameters.
  - The provider's answer is a `Provider` value whose weather data is already extracted.
  - A provider error payload whose `info` is JSON `null` (which raises a `TypeError`) is not modelled.
  - The mapping from the provider's JSON fields to weather data is not modelled.
- File persistence (`load_data`, `save_data`), CORS middleware, the `/health` endpoint and uvicorn start-up are I/O plumbing.
- Loading the store from a file at start-up, before seeding, is not modelled; `Seed` starts from whatever store it is given.
- Request URLs are left out, including the list component's relative `/weather`. Ids are placed in URLs without encoding, so an id containing `/` or `?` would reach a different route; ids are modelled as reaching the handler unchanged.
- The UV index is a `real`: JavaScript's `NaN`, which fails every comparison and so gets purple, has no counterpart.
- Async interleavings, such as two overlapping lookups finishing out of order, are not modelled. Each handler is one atomic transition.
- Length: JavaScript `.length` counts UTF-16 code units and Python `len` counts code points. Both are modelled as sequence length over code points.
- `Text.Lower` lower-cases ASCII letters only. `toLowerCase` maps more characters, but no other code point lower-cases to text that completes one of the keywords searched for: U+0130 gives "i" followed by U+0307, and that "i" can never be the one in "rain".
- EndToEnd.AsOutcome: the 422 reply is not passed on to the client transitions. Its `detail` is a list, which the form would show through `data.detail ||`; the client side only models string details. The form never sends data the request model refuses unless the two whitespace sets, the two date parsers or the two ways of counting length disagree. For example, a location of one astral character such as U+1F600 has `trim().length` 2 in JavaScript and `len` 1 in Python.
- WeatherStore.CreateKeepsServable: requires string notes. A request with `notes: null` passes validation, but the stored record then fails the response model's `notes: str`. The form always sends a string.
- Numbers in weather data are `real`; JSON integers versus floats are not distinguished.
- Request body shape: `WeatherRequest` always has string `date` and `location`. pydantic's 422 for a missing or non-string field is not modelled. Neither is the default `notes = ""` for an absent key; a body without `notes` corresponds to `notes` being `Some("")`.
- Library versions: an unparseable provider body is treated as a `requests.RequestException` (503), which holds for requests 2.27 and later, whose `JSONDecodeError` derives from it. The 500 detail for a re-raised `HTTPException` renders `str(e)` as "<status>: <detail>", which needs a Starlette whose `HTTPException` defines `__str__` that way. The 422 entries carry each validator's message unchanged, as pydantic v1 reports them; pydantic v2's `@validator` shim would prefix "Value error, ".

## Findings

| source | as written | input that shows it | evidently intended | confidence | as-written member | corrected member |
|---|---|---|---|---|---|---|
| backend/main.py:59-79 | the sample record seeded into an empty store has no "id" key, but `WeatherDataResponse` requires `id` | start with an empty store, then `GET /weather/sample-123` or `GET /weather` | the sample carries `"id": "sample-123"`, like every record the create endpoint stores, so it can be looked up and listed | not executed; high | WeatherStore.SeedAsWrittenIsUnservable | WeatherStore.SeedIsServable |

=== FILE: common.dfy ===
/** Shared wrappers: optional values, results, and the client's view of an HTTP exchange. */
module Common {

  /** A value that may be absent (Python `None`, JavaScript `undefined`/`null`). */
  datatype Option<+T> = None | Some(value: T) {

    /** The wrapped value, or `default` when absent. */
    function GetOr(default: T): T {
      match this
      case Some(v) => v
      case None => default
    }
  }

  /** The outcome of a validation step: the accepted value or an error. */
  datatype Result<+T, +E> = Pass(value: T) | Fail(error: E)

  /**
   * What a `fetch` call followed by an optional `response.json()` can come to,
   * seen from the browser:
   * - `Ok`: a 2xx status whose JSON body parsed to `body`;
   * - `OkUnparseable`: a 2xx status whose body is not JSON;
   * - `Failed`: a non-2xx status whose JSON body parsed, with its `detail` member if it has one;
   * - `FailedUnparseable`: a non-2xx status whose body is not JSON;
   * - `Transport`: `fetch` itself rejected (no response at all).
   */
  datatype HttpOutcome<+T> =
    | Ok(body: T)
    | OkUnparseable
    | Failed(status: nat, detail: Option<string>)
    | FailedUnparseable(status: nat)
    | Transport
  {
    /** `response.ok`: the server answered with a 2xx status. */
    predicate IsOk() {
      Ok? || OkUnparseable?
    }
  }

  /**
   * JavaScript's `detail || fallback`: the detail when it is present and
   * non-empty (the empty string is falsy), the fallback otherwise.
   */
  function DetailOr(detail: Option<string>, fallback: string): (m: string)
    ensures detail.Some? && detail.value != "" ==> m == detail.value
    ensures detail.None? || detail.value == "" ==> m == fallback
  {
    match detail
    case Some(d) => if d != "" then d else fallback
    case None => fallback
  }
}

=== FILE: end_to_end.dfy ===
/**
 * The browser components against the backend: what the client sees when
 * the server's answers come from the store model, and where the form's
 * validation and the request model's validation agree.
 */
module EndToEnd {
  import opened Common
  import opened Text
  import opened Records
  import opened RequestValidation
  import opened WeatherStore
  import WeatherForm
  import WeatherLookup
  import RecentWeather

  /**
   * How a reply without request-validation errors reaches `fetch`: a
   * success carries its value and an HTTPException a JSON `detail`, both
   * with the CORS headers. The plain-text 500 of a failed response model
   * comes from the server-error middleware, outside the CORS middleware, so
   * a cross-origin `fetch` sees no CORS header and rejects as on a network
   * failure; a same-origin one (the list's relative `/weather`) reads a
   * body that does not parse.
   */
  function AsOutcome<T>(reply: Reply<T>, crossOrigin: bool): (o: HttpOutcome<T>)
    requires !reply.Unprocessable?
    ensures o.Ok? <==> reply.Done?
    ensures reply.Refused? ==> o == Failed(reply.status, Some(reply.detail))
    ensures reply.ResponseInvalid? ==> (o.Transport? <==> crossOrigin)
  {
    match reply
    case Done(v) => Ok(v)
    case Refused(status, detail) => Failed(status, Some(detail))
    case ResponseInvalid => if crossOrigin then Transport else FailedUnparseable(500)
  }

  /** A delete reply as the client's `handleDelete` sees it: the body is never used. */
  function AsDeleteOutcome(reply: Reply<string>): (o: HttpOutcome<()>)
    requires !reply.Unprocessable?
    ensures o.IsOk() <==> reply.Done?
  {
    match reply
    case Done(_) => Ok(())
    case Refused(status, detail) => Failed(status, Some(detail))
    case ResponseInvalid => FailedUnparseable(500)
  }

  /**
   * Deleting a listed record and reloading the list: once the server has
   * removed id `k`, the reloaded list shows no record with that id and no
   * error. This rests on every stored record carrying its own key as id.
   */
  lemma DeletedRecordLeavesList(store: Store, k: string, list: RecentWeather.RecentState)
    requires Valid(store) && Servable(store) && k in store.records
    ensures var (after, reply) := DeleteWeatherData(store, k);
            var r := RecentWeather.Delete(list, AsDeleteOutcome(reply), AsOutcome(ListEndpoint(after), false));
            && r.error.None?
            && (forall x :: x in r.records ==> x.id != Some(k))
            && |r.records| == |store.records| - 1
  {
    var (after, reply) := DeleteWeatherData(store, k);
    DeleteKeepsServable(store, k);
    assert ListEndpoint(after).Done?;
    var listed := ListWeatherData(after);
    var r := RecentWeather.Delete(list, AsDeleteOutcome(reply), AsOutcome(ListEndpoint(after), false));
    assert r.records == listed;
    forall x | x in listed ensures x.id != Some(k) {
      var k' :| k' in after.records && after.records[k'] == x;
      assert x.id == Some(k');
    }
  }

  /**
   * Looking up an id the store does not hold shows the server's 404 detail
   * verbatim ("Weather data with ID '<id>' not found") and no record.
   */
  lemma LookupOfUnknownId(store: Store, s: WeatherLookup.LookupState)
    requires !AllSpace(JavaScript, s.weatherId)
    requires Strip(JavaScript, s.weatherId) !in store.records
    ensures var id := Strip(JavaScript, s.weatherId);
            var r := WeatherLookup.Lookup(s, AsOutcome(GetEndpoint(store, id), true));
            r.record.None? && r.error == Some(NotFoundDetail(id)) && !r.isLoading
  {
  }

  /**
   * Looking up the sample the server seeds as written: the response model
   * refuses it, and the lookup panel shows the network message instead of
   * the record.
   */
  lemma LookupOfSeededSampleAsWritten(now: string, s: WeatherLookup.LookupState)
    requires s.weatherId == SampleId
    ensures var store := SeedAsWritten(EmptyStore, now);
            var r := WeatherLookup.Lookup(s, AsOutcome(GetEndpoint(store, SampleId), true));
            r.record.None? && r.error == Some(WeatherLookup.NetworkErrorMessage) && !r.isLoading
  {
    SeedAsWrittenIsUnservable(now);
    assert SampleId[0] == 's' && !IsSpace(JavaScript, SampleId[0]);
  }

  /**
   * A record created through `POST /weather` can be looked up by the id the
   * server returned: the lookup shows it, with that id and the stripped
   * location.
   */
  lemma CreatedRecordCanBeLookedUp(store: Store, body: WeatherRequest, dateOk: string -> bool, p: Provider,
                                   freshId: string, now: string, s: WeatherLookup.LookupState)
    requires Valid(store) && body.notes.Some?
    requires PostWeather(store, body, dateOk, p, freshId, now).1.Done?
    requires s.weatherId == freshId && freshId != "" && Strip(JavaScript, freshId) == freshId
    ensures var after := PostWeather(store, body, dateOk, p, freshId, now).0;
            var r := WeatherLookup.Lookup(s, AsOutcome(GetEndpoint(after, freshId), true));
            && r.error.None?
            && r.record.Some?
            && r.record.value.id == Some(freshId)
            && r.record.value.location == Strip(Python, body.location)
  {
    assert !AllSpace(JavaScript, freshId);
  }

  /**
   * On a location without a character only one runtime treats as
   * whitespace, the form accepts it exactly when the request model does.
   */
  lemma LocationRulesAgree(env: WeatherForm.DateEnv, d: WeatherForm.FormData)
    requires forall i :: 0 <= i < |d.location| ==> !Disputed(d.location[i])
    ensures WeatherForm.ValidateForm(env, d).location.None? <==> ValidateLocation(d.location).Pass?
  {
    StripAgrees(d.location);
  }

  /**
   * The two runtimes' whitespace differs, and so do the validators: "a"
   * followed by U+001C passes the form (JavaScript keeps U+001C) but the
   * request model strips it and finds one character.
   */
  lemma SeparatorPassesOnlyTheForm(env: WeatherForm.DateEnv)
    ensures var d := WeatherForm.FormData("2024-03-01", "a\U{001C}", "");
            WeatherForm.ValidateForm(env, d).location.None?
            && ValidateLocation(d.location) == Fail(LocationShortMessage)
  {
    var v := "a\U{001C}";
    assert !IsSpace(JavaScript, v[0]) && !IsSpace(JavaScript, v[1]);
    assert !IsSpace(Python, v[0]) && IsSpace(Python, v[1]);
    assert Strip(JavaScript, v) == v;
    assert v[..1] == "a";
    assert TrimEnd(Python, v[..1]) == "a";
    assert Strip(Python, v) == "a";
  }

  /**
   * Conversely "a" followed by the byte order mark U+FEFF is refused by the
   * form, which trims it, but passes the request model unchanged.
   */
  lemma ByteOrderMarkPassesOnlyTheServer(env: WeatherForm.DateEnv)
    ensures var d := WeatherForm.FormData("2024-03-01", "a\U{FEFF}", "");
            WeatherForm.ValidateForm(env, d).location.Some?
            && ValidateLocation(d.location) == Pass("a\U{FEFF}")
  {
    var w := "a\U{FEFF}";
    assert !IsSpace(Python, w[0]) && !IsSpace(Python, w[1]);
    assert !IsSpace(JavaScript, w[0]) && IsSpace(JavaScript, w[1]);
    assert Strip(Python, w) == w;
    assert w[..1] == "a";
    assert TrimEnd(JavaScript, w[..1]) == "a";
    assert Strip(JavaScript, w) == "a";
  }

  /** The 500-character limit on notes is the same on both sides. */
  lemma NotesRulesAgree(env: WeatherForm.DateEnv, d: WeatherForm.FormData)
    ensures WeatherForm.ValidateForm(env, d).notes.None? <==> ValidateNotes(Some(d.notes)).Pass?
  {
  }

  /**
   * A form the client accepts is accepted by the request model as sent
   * (`JSON.stringify(formData)`), provided its location has no disputed
   * whitespace and `strptime` accepts the date text the form produced.
   */
  lemma AcceptedFormPassesServer(env: WeatherForm.DateEnv, d: WeatherForm.FormData, dateOk: string -> bool)
    requires !WeatherForm.HasErrors(WeatherForm.ValidateForm(env, d))
    requires forall i :: 0 <= i < |d.location| ==> !Disputed(d.location[i])
    requires dateOk(d.date)
    ensures ValidateRequest(WeatherRequest(d.date, d.location, Some(d.notes)), dateOk).Pass?
  {
    LocationRulesAgree(env, d);
  }
}

=== FILE: ordering.dfy ===
/**
 * The order `GET /weather` returns records in: Python's stable sort on
 * `created_at` with `reverse=True`, so newest first, and records with equal
 * timestamps keep the store's insertion order.
 */
module Ordering {
  import opened Common
  import opened Records

  /** Python's `<=` on `str`: lexicographic comparison by code point. */
  predicate LexLe(a: string, b: string)
    decreases |a|
  {
    a == [] || (b != [] && (a[0] < b[0] || (a[0] == b[0] && LexLe(a[1..], b[1..]))))
  }

  lemma {:induction false} LexLeReflexive(a: string)
    ensures LexLe(a, a)
    decreases |a|
  {
    if a != [] {
      LexLeReflexive(a[1..]);
    }
  }

  lemma {:induction false} LexLeTotal(a: string, b: string)
    ensures LexLe(a, b) || LexLe(b, a)
    decreases |a|
  {
    if a != [] && b != [] && a[0] == b[0] {
      LexLeTotal(a[1..], b[1..]);
    }
  }

  lemma {:induction false} LexLeTransitive(a: string, b: string, c: string)
    requires LexLe(a, b) && LexLe(b, c)
    ensures LexLe(a, c)
    decreases |a|
  {
    if a != [] && a[0] == b[0] && b[0] == c[0] {
      LexLeTransitive(a[1..], b[1..], c[1..]);
    }
  }

  lemma {:induction false} LexLeAntisymmetric(a: string, b: string)
    requires LexLe(a, b) && LexLe(b, a)
    ensures a == b
    decreases |a|
  {
    if a != [] {
      LexLeAntisymmetric(a[1..], b[1..]);
      assert a == [a[0]] + a[1..];
      assert b == [b[0]] + b[1..];
    }
  }

  /** Pairwise: every record's key is at least the key of every record after it. */
  predicate NewestFirst(xs: seq<WeatherRecord>) {
    forall i, j :: 0 <= i < j < |xs| ==> LexLe(SortKey(xs[j]), SortKey(xs[i]))
  }

  /** A record at least as new as everything in a newest-first list may go in front of it. */
  lemma ConsKeepsOrder(y: WeatherRecord, rest: seq<WeatherRecord>)
    requires NewestFirst(rest)
    requires forall z :: z in multiset(rest) ==> LexLe(SortKey(z), SortKey(y))
    ensures NewestFirst([y] + rest)
  {
    forall i, j | 0 <= i < j < |[y] + rest| ensures LexLe(SortKey(([y] + rest)[j]), SortKey(([y] + rest)[i])) {
      assert ([y] + rest)[j] == rest[j - 1];
      assert rest[j - 1] in multiset(rest);
      if i > 0 {
        assert ([y] + rest)[i] == rest[i - 1];
      }
    }
  }

  /** In a newest-first list every later record is at most as new as the head. */
  lemma TailBelowHead(s: seq<WeatherRecord>)
    requires NewestFirst(s) && s != []
    ensures forall z :: z in multiset(s[1..]) ==> LexLe(SortKey(z), SortKey(s[0]))
  {
    forall z | z in multiset(s[1..]) ensures LexLe(SortKey(z), SortKey(s[0])) {
      var j :| 0 <= j < |s[1..]| && s[1..][j] == z;
      assert s[j + 1] == z;
    }
  }

  /**
   * Inserts `x` in front of the first record whose key is not greater than
   * its own, which is where a stable descending sort puts a record that came
   * before all of `s` in the input.
   */
  function Insert(x: WeatherRecord, s: seq<WeatherRecord>): (r: seq<WeatherRecord>)
    requires NewestFirst(s)
    ensures NewestFirst(r)
    ensures multiset(r) == multiset(s) + multiset{x}
  {
    if s == [] then [x]
    else if LexLe(SortKey(s[0]), SortKey(x)) then
      TailBelowHead(s);
      assert forall z :: z in multiset(s) ==> LexLe(SortKey(z), SortKey(x)) by {
        forall z | z in multiset(s) ensures LexLe(SortKey(z), SortKey(x)) {
          assert s == [s[0]] + s[1..];
          if z != s[0] {
            LexLeTransitive(SortKey(z), SortKey(s[0]), SortKey(x));
          }
        }
      }
      ConsKeepsOrder(x, s);
      [x] + s
    else
      LexLeTotal(SortKey(s[0]), SortKey(x));
      TailBelowHead(s);
      var rest := Insert(x, s[1..]);
      assert s == [s[0]] + s[1..];
      ConsKeepsOrder(s[0], rest);
      [s[0]] + rest
  }

  /** `items.sort(key=created_at, reverse=True)`, as a stable insertion sort. */
  function SortNewestFirst(xs: seq<WeatherRecord>): (r: seq<WeatherRecord>)
    ensures NewestFirst(r)
    ensures multiset(r) == multiset(xs)
  {
    if xs == [] then []
    else
      assert xs == [xs[0]] + xs[1..];
      Insert(xs[0], SortNewestFirst(xs[1..]))
  }

  /** The records of `xs` whose sort key is `k`, in their order in `xs`. */
  function WithKey(xs: seq<WeatherRecord>, k: string): seq<WeatherRecord>
  {
    if xs == [] then []
    else (if SortKey(xs[0]) == k then [xs[0]] else []) + WithKey(xs[1..], k)
  }

  /** `WithKey` on a sequence with a known first element. */
  lemma WithKeyCons(y: WeatherRecord, t: seq<WeatherRecord>, k: string)
    ensures WithKey([y] + t, k) == (if SortKey(y) == k then [y] else []) + WithKey(t, k)
  {
    assert ([y] + t)[0] == y && ([y] + t)[1..] == t;
  }

  /** Past a record with a key greater than its own, `Insert` keeps going. */
  lemma InsertPasses(x: WeatherRecord, s: seq<WeatherRecord>)
    requires NewestFirst(s) && s != [] && !LexLe(SortKey(s[0]), SortKey(x))
    ensures NewestFirst(s[1..])
    ensures Insert(x, s) == [s[0]] + Insert(x, s[1..])
  {
  }

  /** The records `Insert` places before `x` have keys that differ from `x`'s. */
  lemma TiesStep(x: WeatherRecord, y: WeatherRecord, rest: seq<WeatherRecord>, tail: seq<WeatherRecord>, k: string)
    requires !LexLe(SortKey(y), SortKey(x))
    requires WithKey(rest, k) == (if SortKey(x) == k then [x] else []) + WithKey(tail, k)
    ensures WithKey([y] + rest, k) == (if SortKey(x) == k then [x] else []) + WithKey([y] + tail, k)
  {
    WithKeyCons(y, rest, k);
    WithKeyCons(y, tail, k);
    if SortKey(x) == k {
      LexLeReflexive(SortKey(x));
    }
  }

  lemma {:induction false} InsertKeepsTies(x: WeatherRecord, s: seq<WeatherRecord>, k: string)
    requires NewestFirst(s)
    ensures WithKey(Insert(x, s), k) == (if SortKey(x) == k then [x] else []) + WithKey(s, k)
  {
    if s == [] {
      WithKeyCons(x, [], k);
    } else if LexLe(SortKey(s[0]), SortKey(x)) {
      WithKeyCons(x, s, k);
    } else {
      InsertPasses(x, s);
      InsertKeepsTies(x, s[1..], k);
      TiesStep(x, s[0], Insert(x, s[1..]), s[1..], k);
      assert s == [s[0]] + s[1..];
    }
  }

  /**
   * Stability: among records with equal timestamps, the sorted list keeps
   * their order in the input.
   */
  lemma {:induction false} SortIsStable(xs: seq<WeatherRecord>, k: string)
    ensures WithKey(SortNewestFirst(xs), k) == WithKey(xs, k)
  {
    if xs != [] {
      SortIsStable(xs[1..], k);
      InsertKeepsTies(xs[0], SortNewestFirst(xs[1..]), k);
    }
  }

  /**
   * A record without `created_at` sorts as "", the least string, so in a
   * newest-first list every record after it lacks a timestamp too (or has an
   * empty one).
   */
  lemma UntimedRecordsLast(xs: seq<WeatherRecord>, i: int, j: int)
    requires NewestFirst(xs)
    requires 0 <= i < j < |xs| && xs[i].createdAt.None?
    ensures SortKey(xs[j]) == ""
  {
    assert LexLe(SortKey(xs[j]), "");
    assert LexLe("", SortKey(xs[j]));
    LexLeAntisymmetric(SortKey(xs[j]), "");
  }
}

=== FILE: recent_weather.dfy ===
/**
 * The recent-records list (frontend/src/components/recent-weather-data.tsx):
 * loading the list and deleting an entry, as transitions of
 * `{records, isLoading, error}`.
 */
module RecentWeather {
  import opened Common
  import opened Text
  import opened Records

  datatype RecentState = RecentState(records: seq<WeatherRecord>, isLoading: bool, error: Option<string>)

  /** Before the first load finishes: no records, loading. */
  const InitialRecent := RecentState([], true, None)

  const NetworkErrorMessage := "Network error: Could not connect to the server"

  /**
   * The load on mount: the list starts empty and loading, so it shows the
   * server's records on success and stays empty, with an error, otherwise.
   */
  lemma FirstLoad(outcome: HttpOutcome<seq<WeatherRecord>>)
    ensures FetchStart(InitialRecent) == InitialRecent
    ensures var r := Fetch(InitialRecent, outcome);
            && !r.isLoading
            && r.records == (if outcome.Ok? then outcome.body else [])
            && (r.error.None? <==> outcome.Ok?)
  {
  }

  function FetchFailedMessage(status: nat): string {
    "Failed to fetch recent weather data (Status: " + Decimal(status) + ")"
  }

  function DeleteFailedMessage(status: nat): string {
    "Failed to delete weather data (Status: " + Decimal(status) + ")"
  }

  /** What `fetchRecentData` does before its request: loading, error cleared. */
  function FetchStart(s: RecentState): RecentState {
    s.(isLoading := true, error := None)
  }

  /**
   * What `fetchRecentData` does with the answer. A non-2xx body that does
   * not parse counts as `{}`, so the status-coded message is shown; a 2xx
   * body that does not parse throws into the network branch.
   */
  function FetchFinish(s: RecentState, outcome: HttpOutcome<seq<WeatherRecord>>): RecentState {
    match outcome
    case Ok(list) => s.(records := list, error := None, isLoading := false)
    case Failed(status, detail) =>
      s.(error := Some(DetailOr(detail, FetchFailedMessage(status))), isLoading := false)
    case FailedUnparseable(status) => s.(error := Some(FetchFailedMessage(status)), isLoading := false)
    case _ => s.(error := Some(NetworkErrorMessage), isLoading := false)
  }

  /**
   * `fetchRecentData` as one transition. Loading always ends. Success
   * replaces the list wholesale and clears the error; every failure keeps
   * the list on screen and shows the server's detail, a message naming the
   * status, or the network message.
   */
  function Fetch(s: RecentState, outcome: HttpOutcome<seq<WeatherRecord>>): (r: RecentState)
    ensures !r.isLoading
    ensures outcome.Ok? ==> r.records == outcome.body && r.error.None?
    ensures !outcome.Ok? ==> r.records == s.records && r.error.Some?
    ensures outcome.Failed? ==> r.error == Some(DetailOr(outcome.detail, FetchFailedMessage(outcome.status)))
    ensures outcome.FailedUnparseable? ==> r.error == Some(FetchFailedMessage(outcome.status))
    ensures outcome.OkUnparseable? || outcome.Transport? ==> r.error == Some(NetworkErrorMessage)
  {
    FetchFinish(FetchStart(s), outcome)
  }

  /**
   * Loading and error are reset before the answer is applied, so what a
   * load shows depends only on the list on screen and the answer.
   */
  lemma FetchForgetsPreviousStatus(s: RecentState, loading: bool, error: Option<string>,
                                   outcome: HttpOutcome<seq<WeatherRecord>>)
    ensures Fetch(s.(isLoading := loading, error := error), outcome) == Fetch(s, outcome)
  {
  }

  /** An unparseable failure body reads as a body without `detail`. */
  lemma UnparseableBodyIsEmptyObject(s: RecentState, status: nat)
    ensures Fetch(s, FailedUnparseable(status)) == Fetch(s, Failed(status, None))
  {
  }

  /**
   * `handleDelete(id)`. The response body is read only on failure. Success
   * clears the error and reloads the list (`refetch` is that reload's
   * answer); the entry is not removed locally. Failure keeps the list and
   * shows the detail or a message naming the status.
   */
  function Delete(s: RecentState, outcome: HttpOutcome<()>, refetch: HttpOutcome<seq<WeatherRecord>>)
    : (r: RecentState)
    ensures outcome.IsOk() ==> r == Fetch(s.(error := None), refetch)
    ensures outcome.Failed? ==>
              r == s.(error := Some(DetailOr(outcome.detail, DeleteFailedMessage(outcome.status))))
    ensures outcome.FailedUnparseable? ==> r == s.(error := Some(DeleteFailedMessage(outcome.status)))
    ensures outcome.Transport? ==> r == s.(error := Some(NetworkErrorMessage))
  {
    match outcome
    case Ok(_) => Fetch(s.(error := None), refetch)
    case OkUnparseable => Fetch(s.(error := None), refetch)
    case Failed(status, detail) => s.(error := Some(DetailOr(detail, DeleteFailedMessage(status))))
    case FailedUnparseable(status) => s.(error := Some(DeleteFailedMessage(status)))
    case Transport => s.(error := Some(NetworkErrorMessage))
  }

  /** A failed delete never changes what the list shows. */
  lemma FailedDeleteKeepsList(s: RecentState, outcome: HttpOutcome<()>, refetch: HttpOutcome<seq<WeatherRecord>>)
    requires !outcome.IsOk()
    ensures Delete(s, outcome, refetch).records == s.records
    ensures Delete(s, outcome, refetch).error.Some?
  {
  }

  /** The status-coded messages of two failures differ when the statuses do. */
  lemma FetchFailedMessageNamesStatus(a: nat, b: nat)
    requires FetchFailedMessage(a) == FetchFailedMessage(b)
    ensures a == b
  {
    var prefix := "Failed to fetch recent weather data (Status: ";
    var ma := FetchFailedMessage(a);
    var mb := FetchFailedMessage(b);
    assert ma[|prefix|..|ma| - 1] == Decimal(a);
    assert mb[|prefix|..|mb| - 1] == Decimal(b);
    DecimalInjective(a, b);
  }
}

=== FILE: records.dfy ===
/**
 * The stored weather record, as the backend keeps it in `weather_storage`
 * and as the browser receives it from `GET /weather` and `GET /weather/{id}`.
 */
module Records {
  import opened Common

  /**
   * The provider's observation. Every member may be missing; numbers are
   * JavaScript numbers, modelled as reals.
   */
  datatype WeatherData = WeatherData(
    temperature: Option<real>,
    description: Option<string>,
    humidity: Option<real>,
    windSpeed: Option<real>,
    pressure: Option<real>,
    visibility: Option<real>,
    feelsLike: Option<real>,
    uvIndex: Option<real>,
    precipitation: Option<real>,
    cloudCover: Option<real>,
    windDirection: Option<string>,
    sunrise: Option<string>,
    sunset: Option<string>)

  /**
   * One entry of the store. `id`, `notes` and `createdAt` are optional
   * because a stored dictionary need not carry them: the seeded sample has
   * no `id` key, a request may carry `notes: null`, and a record loaded from
   * the data file may lack `created_at`.
   */
  datatype WeatherRecord = WeatherRecord(
    id: Option<string>,
    date: string,
    location: string,
    notes: Option<string>,
    weatherData: WeatherData,
    createdAt: Option<string>)

  /** The key `GET /weather` sorts by: `created_at`, or "" when it is missing. */
  function SortKey(r: WeatherRecord): string {
    r.createdAt.GetOr("")
  }
}

=== FILE: request_validation.dfy ===
/**
 * The backend's request model `WeatherRequest` (backend/main.py) and its
 * field validators, which run before the create handler sees a request.
 */
module RequestValidation {
  import opened Common
  import opened Text

  const DateFormatMessage := "Date must be in YYYY-MM-DD format"
  const LocationEmptyMessage := "Location cannot be empty"
  const LocationShortMessage := "Location must be at least 2 characters"
  const NotesLongMessage := "Notes cannot exceed 500 characters"

  /** The longest notes either side accepts. */
  const MaxNotesLength := 500

  /** The JSON body of `POST /weather`; `notes: None` is an explicit JSON `null`. */
  datatype WeatherRequest = WeatherRequest(date: string, location: string, notes: Option<string>)

  /**
   * `validate_location`: rejects a blank location, then one shorter than two
   * characters after stripping; otherwise the stripped text replaces the input.
   */
  function ValidateLocation(v: string): (r: Result<string, string>)
    ensures r.Pass? <==> |Strip(Python, v)| >= 2
    ensures r.Pass? ==> r.value == Strip(Python, v) && |r.value| >= 2
    ensures r == Fail(LocationEmptyMessage) <==> AllSpace(Python, v)
    ensures r == Fail(LocationShortMessage) <==> |Strip(Python, v)| == 1
  {
    var t := Strip(Python, v);
    if t == "" then Fail(LocationEmptyMessage)
    else if |t| < 2 then Fail(LocationShortMessage)
    else Pass(t)
  }

  /** Validating the value a successful validation stored gives that value back. */
  lemma ValidateLocationIdempotent(v: string)
    requires ValidateLocation(v).Pass?
    ensures ValidateLocation(ValidateLocation(v).value) == ValidateLocation(v)
  {
    StripIdempotent(Python, v);
  }

  /**
   * `validate_notes`: `None`, the empty string and anything up to 500
   * characters pass unchanged; longer notes are rejected.
   */
  function ValidateNotes(v: Option<string>): (r: Result<Option<string>, string>)
    ensures r.Pass? <==> v.None? || |v.value| <= MaxNotesLength
    ensures r.Pass? ==> r.value == v
    ensures r.Fail? ==> r.error == NotesLongMessage
  {
    match v
    case Some(n) => if n != "" && |n| > MaxNotesLength then Fail(NotesLongMessage) else Pass(v)
    case None => Pass(v)
  }

  /** The request fields, in declaration order. */
  datatype RequestField = DateField | LocationField | NotesField

  function Position(f: RequestField): nat {
    match f
    case DateField => 0
    case LocationField => 1
    case NotesField => 2
  }

  /** One entry of a 422 `detail` list: the field it is about and its message. */
  datatype FieldError = FieldError(field: RequestField, message: string)

  /** The entries for the fields whose validator failed, given each failure's message. */
  function Collect(date: Option<string>, location: Option<string>, notes: Option<string>): (r: seq<FieldError>)
    ensures r == [] <==> date.None? && location.None? && notes.None?
    ensures |r| <= 3
    ensures forall i, j :: 0 <= i < j < |r| ==> Position(r[i].field) < Position(r[j].field)
    ensures forall m :: FieldError(DateField, m) in r <==> date == Some(m)
    ensures forall m :: FieldError(LocationField, m) in r <==> location == Some(m)
    ensures forall m :: FieldError(NotesField, m) in r <==> notes == Some(m)
  {
    (if date.Some? then [FieldError(DateField, date.value)] else [])
    + (if location.Some? then [FieldError(LocationField, location.value)] else [])
    + (if notes.Some? then [FieldError(NotesField, notes.value)] else [])
  }

  /** The message of a failed validation, `None` for one that passed. */
  function FailureOf<T>(r: Result<T, string>): (o: Option<string>)
    ensures o.None? <==> r.Pass?
    ensures forall m :: o == Some(m) <==> r == Fail(m)
  {
    if r.Fail? then Some(r.error) else None
  }

  /**
   * The model's field validation as a whole. Every field is validated, and
   * the request passes only when all three validators do; the stored
   * location is the stripped one. `dateOk` stands for
   * `strptime(v, '%Y-%m-%d')` succeeding.
   */
  function ValidateRequest(body: WeatherRequest, dateOk: string -> bool): (r: Result<WeatherRequest, seq<FieldError>>)
    ensures r.Pass? <==> dateOk(body.date) && ValidateLocation(body.location).Pass? && ValidateNotes(body.notes).Pass?
    ensures r.Pass? ==> r.value == WeatherRequest(body.date, Strip(Python, body.location), body.notes)
  {
    var location := ValidateLocation(body.location);
    var notes := ValidateNotes(body.notes);
    var errors := Collect(if dateOk(body.date) then None else Some(DateFormatMessage),
                          FailureOf(location), FailureOf(notes));
    if errors == [] then Pass(WeatherRequest(body.date, location.value, notes.value))
    else Fail(errors)
  }

  /**
   * The 422 answer lists one entry per failing field, in field order (date,
   * location, notes), each with its validator's message.
   */
  lemma ValidateRequestErrors(body: WeatherRequest, dateOk: string -> bool)
    requires ValidateRequest(body, dateOk).Fail?
    ensures var e := ValidateRequest(body, dateOk).error;
            && 1 <= |e| <= 3
            && (forall i, j :: 0 <= i < j < |e| ==> Position(e[i].field) < Position(e[j].field))
            && (forall m :: FieldError(DateField, m) in e <==> !dateOk(body.date) && m == DateFormatMessage)
            && (forall m :: FieldError(LocationField, m) in e <==> ValidateLocation(body.location) == Fail(m))
            && (forall m :: FieldError(NotesField, m) in e <==> ValidateNotes(body.notes) == Fail(m))
  {
  }
}

=== FILE: text.dfy ===
/**
 * String primitives the two sides of the application rely on: whitespace
 * trimming (Python `str.strip()` and JavaScript `String.prototype.trim()`),
 * lower-casing, substring search and decimal rendering of status codes.
 */
module Text {

  /** Which runtime's notion of whitespace a trim uses. */
  datatype Flavour = Python | JavaScript

  /**
   * Whitespace as `str.strip()` without arguments removes it (`str.isspace`)
   * and as `String.prototype.trim()` removes it (WhiteSpace and LineTerminator
   * of ECMA-262). Both contain the ASCII controls TAB..CR, SPACE, NO-BREAK SPACE
   * and the Unicode space separators and line/paragraph separators; Python adds
   * the information separators U+001C..U+001F and NEXT LINE U+0085, JavaScript
   * adds the byte order mark U+FEFF.
   */
  predicate IsSpace(f: Flavour, c: char) {
    || ('\t' <= c <= '\r')
    || c == ' '
    || c == '\U{00A0}'
    || c == '\U{1680}'
    || ('\U{2000}' <= c <= '\U{200A}')
    || c == '\U{2028}'
    || c == '\U{2029}'
    || c == '\U{202F}'
    || c == '\U{205F}'
    || c == '\U{3000}'
    || (f == Python && (('\U{001C}' <= c <= '\U{001F}') || c == '\U{0085}'))
    || (f == JavaScript && c == '\U{FEFF}')
  }

  /** A character one runtime trims and the other keeps. */
  predicate Disputed(c: char) {
    IsSpace(Python, c) != IsSpace(JavaScript, c)
  }

  predicate AllSpace(f: Flavour, s: string) {
    forall i :: 0 <= i < |s| ==> IsSpace(f, s[i])
  }

  /** Drops leading whitespace: the result is a suffix of `s` behind a run of spaces. */
  function TrimStart(f: Flavour, s: string): (r: string)
    ensures |r| <= |s| && r == s[|s| - |r|..]
    ensures AllSpace(f, s[..|s| - |r|])
    ensures r == [] || !IsSpace(f, r[0])
  {
    if s != [] && IsSpace(f, s[0]) then
      var r := TrimStart(f, s[1..]);
      assert s[..|s| - |r|] == [s[0]] + s[1..][..|s| - 1 - |r|];
      r
    else s
  }

  /** Drops trailing whitespace: the result is a prefix of `s` before a run of spaces. */
  function TrimEnd(f: Flavour, s: string): (r: string)
    ensures |r| <= |s| && r == s[..|r|]
    ensures AllSpace(f, s[|r|..])
    ensures r == [] || !IsSpace(f, r[|r| - 1])
  {
    if s != [] && IsSpace(f, s[|s| - 1]) then
      var r := TrimEnd(f, s[..|s| - 1]);
      assert s[|r|..] == s[..|s| - 1][|r|..] + [s[|s| - 1]];
      r
    else s
  }

  /** A string made of two all-space parts is all space. */
  lemma AllSpaceJoin(f: Flavour, a: string, b: string)
    requires AllSpace(f, a) && AllSpace(f, b)
    ensures AllSpace(f, a + b)
  {
    forall k | 0 <= k < |a + b| ensures IsSpace(f, (a + b)[k]) {
      if k >= |a| {
        assert (a + b)[k] == b[k - |a|];
      }
    }
  }

  /**
   * Removes whitespace at both ends. The result neither starts nor ends with
   * a space, and it is empty exactly when `s` is all whitespace.
   */
  function Strip(f: Flavour, s: string): (r: string)
    ensures |r| <= |s|
    ensures r != [] ==> !IsSpace(f, r[0]) && !IsSpace(f, r[|r| - 1])
    ensures r == [] <==> AllSpace(f, s)
  {
    var t := TrimStart(f, s);
    var r := TrimEnd(f, t);
    var i := |s| - |t|;
    assert s[i + |r|..] == t[|r|..];
    assert r == [] ==> AllSpace(f, s) by {
      if r == [] {
        AllSpaceJoin(f, s[..i], t);
        assert s == s[..i] + t;
      }
    }
    r
  }

  /** `r` sits at offset `i` of `s` with nothing but whitespace on either side. */
  predicate PaddedAt(f: Flavour, s: string, r: string, i: int) {
    0 <= i <= |s| - |r| && s[i..i + |r|] == r && AllSpace(f, s[..i]) && AllSpace(f, s[i + |r|..])
  }

  /**
   * The stripped string is the infix of `s` left after cutting a run of
   * spaces off each end: nothing but whitespace is removed.
   */
  lemma StripIsInfix(f: Flavour, s: string)
    ensures exists i :: PaddedAt(f, s, Strip(f, s), i)
  {
    var t := TrimStart(f, s);
    var r := TrimEnd(f, t);
    var i := |s| - |t|;
    assert r == Strip(f, s);
    assert s[i..i + |r|] == t[..|r|];
    assert s[i + |r|..] == t[|r|..];
    assert PaddedAt(f, s, r, i);
  }

  /** Stripping twice is stripping once. */
  lemma StripIdempotent(f: Flavour, s: string)
    ensures Strip(f, Strip(f, s)) == Strip(f, s)
  {
    var r := Strip(f, s);
    assert TrimStart(f, r) == r;
    assert TrimEnd(f, r) == r;
  }

  /** On strings without a disputed character the two runtimes trim alike. */
  lemma {:induction false} TrimStartAgrees(s: string)
    requires forall i :: 0 <= i < |s| ==> !Disputed(s[i])
    ensures TrimStart(Python, s) == TrimStart(JavaScript, s)
    decreases |s|
  {
    if s != [] {
      assert !Disputed(s[0]);
      TrimStartAgrees(s[1..]);
    }
  }

  lemma {:induction false} TrimEndAgrees(s: string)
    requires forall i :: 0 <= i < |s| ==> !Disputed(s[i])
    ensures TrimEnd(Python, s) == TrimEnd(JavaScript, s)
    decreases |s|
  {
    if s != [] {
      assert !Disputed(s[|s| - 1]);
      TrimEndAgrees(s[..|s| - 1]);
    }
  }

  /** A suffix of a string without disputed characters has none either. */
  lemma SuffixUndisputed(s: string, n: nat)
    requires n <= |s|
    requires forall i :: 0 <= i < |s| ==> !Disputed(s[i])
    ensures forall i :: 0 <= i < |s[n..]| ==> !Disputed(s[n..][i])
  {
    forall i | 0 <= i < |s[n..]| ensures !Disputed(s[n..][i]) {
      assert s[n..][i] == s[n + i];
    }
  }

  /** `Strip` is a `TrimStart` followed by a `TrimEnd`. */
  lemma StripTrims(f: Flavour, s: string)
    ensures Strip(f, s) == TrimEnd(f, TrimStart(f, s))
  {
  }

  lemma StripAgrees(s: string)
    requires forall i :: 0 <= i < |s| ==> !Disputed(s[i])
    ensures Strip(Python, s) == Strip(JavaScript, s)
  {
    TrimStartAgrees(s);
    var t := TrimStart(Python, s);
    SuffixUndisputed(s, |s| - |t|);
    TrimEndAgrees(t);
    StripTrims(Python, s);
    StripTrims(JavaScript, s);
  }

  /**
   * Lower-casing of the ASCII letters. `String.prototype.toLowerCase` maps
   * more code points than these; no other code point lower-cases to a
   * sequence containing the keywords this application searches for.
   */
  function LowerChar(c: char): (d: char)
    ensures 'A' <= c <= 'Z' ==> 'a' <= d <= 'z' && d as int - c as int == 'a' as int - 'A' as int
    ensures !('A' <= c <= 'Z') ==> d == c
  {
    if 'A' <= c <= 'Z' then (c as int - 'A' as int + 'a' as int) as char else c
  }

  function Lower(s: string): (r: string)
    ensures |r| == |s|
    ensures forall i :: 0 <= i < |s| ==> r[i] == LowerChar(s[i])
  {
    seq(|s|, i requires 0 <= i < |s| => LowerChar(s[i]))
  }

  /** Lower-casing is idempotent. */
  lemma LowerIdempotent(s: string)
    ensures Lower(Lower(s)) == Lower(s)
  {
    var l := Lower(s);
    assert forall i :: 0 <= i < |l| ==> LowerChar(l[i]) == l[i];
  }

  /** `s.includes(t)` and Python's `t in s`: `t` occurs in `s` at some position. */
  predicate Contains(s: string, t: string) {
    exists i | 0 <= i <= |s| - |t| :: OccursAt(s, t, i)
  }

  /** `t` occurs in `s` starting at index `i`. */
  predicate OccursAt(s: string, t: string, i: int) {
    0 <= i <= |s| - |t| && s[i..i + |t|] == t
  }

  /** A string lacking one of `t`'s characters does not contain `t`. */
  lemma MissingCharNotContained(s: string, t: string, k: nat)
    requires k < |t| && t[k] !in s
    ensures !Contains(s, t)
  {
    forall i | 0 <= i <= |s| - |t| ensures !OccursAt(s, t, i) {
      assert s[i..i + |t|][k] == s[i + k];
    }
  }

  function DigitChar(d: nat): (c: char)
    requires d < 10
    ensures '0' <= c <= '9'
  {
    ('0' as int + d) as char
  }

  /** Decimal rendering of a natural number, as `${n}` and `f"{n}"` produce it. */
  function Decimal(n: nat): (r: string)
    ensures r != []
    ensures forall i :: 0 <= i < |r| ==> '0' <= r[i] <= '9'
    ensures r[0] != '0' || r == "0"
  {
    if n < 10 then [DigitChar(n)] else Decimal(n / 10) + [DigitChar(n % 10)]
  }

  /** The number a string of decimal digits denotes. */
  function DecimalValue(s: string): int
  {
    if s == [] then 0 else 10 * DecimalValue(s[..|s| - 1]) + (s[|s| - 1] as int - '0' as int)
  }

  /** Rendering then reading back yields the number, so distinct codes render distinctly. */
  lemma {:induction false} DecimalRoundTrip(n: nat)
    ensures DecimalValue(Decimal(n)) == n
  {
    if n >= 10 {
      DecimalRoundTrip(n / 10);
      var r := Decimal(n);
      assert r[..|r| - 1] == Decimal(n / 10);
    }
  }

  lemma DecimalInjective(m: nat, n: nat)
    requires Decimal(m) == Decimal(n)
    ensures m == n
  {
    DecimalRoundTrip(m);
    DecimalRoundTrip(n);
  }
}

=== FILE: weather_form.dfy ===
/**
 * The request form (frontend/src/components/weather-form.tsx): its pure
 * validator, the submit button's enabling condition, and the event
 * handlers as transitions of the component's state.
 *
 * JavaScript `Date` parsing and formatting depend on the locale and time
 * zone, so they enter as the functions of a `DateEnv`; a date is its time
 * value in milliseconds.
 */
module WeatherForm {
  import opened Common
  import opened Text
  import opened RequestValidation

  /**
   * `new Date(text)` (`None` for an invalid date), `formatDateForAPI` and
   * `formatDateForDisplay` on a valid date.
   */
  datatype DateEnv = DateEnv(parse: string -> Option<int>, forApi: int -> string, forDisplay: int -> string)

  datatype FormData = FormData(date: string, location: string, notes: string)

  /** One optional message per field. */
  datatype FormErrors = FormErrors(date: Option<string>, location: Option<string>, notes: Option<string>)

  const NoErrors := FormErrors(None, None, None)

  /** `Object.keys(errors).length > 0` for a record `validateForm` built. */
  predicate HasErrors(e: FormErrors) {
    e.date.Some? || e.location.Some? || e.notes.Some?
  }

  datatype Field = Date | Location | Notes

  function FieldValue(d: FormData, f: Field): string {
    match f
    case Date => d.date
    case Location => d.location
    case Notes => d.notes
  }

  function ErrorOf(e: FormErrors, f: Field): Option<string> {
    match f
    case Date => e.date
    case Location => e.location
    case Notes => e.notes
  }

  const DateRequiredMessage := "Date is required"
  const DateInvalidMessage := "Invalid date format"
  const LocationRequiredMessage := "Location is required"

  /**
   * `validateForm`: the date must be present and parse; the location must
   * be non-blank and at least two characters after trimming, blankness
   * being reported first; notes longer than 500 characters are refused.
   */
  function ValidateForm(env: DateEnv, d: FormData): (e: FormErrors)
    ensures e.date.None? <==> d.date != "" && env.parse(d.date).Some?
    ensures d.date == "" ==> e.date == Some(DateRequiredMessage)
    ensures d.date != "" && env.parse(d.date).None? ==> e.date == Some(DateInvalidMessage)
    ensures e.location.None? <==> |Strip(JavaScript, d.location)| >= 2
    ensures e.location == Some(LocationRequiredMessage) <==> AllSpace(JavaScript, d.location)
    ensures e.location.Some? && !AllSpace(JavaScript, d.location) ==> e.location == Some(LocationShortMessage)
    ensures e.notes.None? <==> |d.notes| <= MaxNotesLength
    ensures e.notes.Some? ==> e.notes == Some(NotesLongMessage)
  {
    var date :=
      if d.date == "" then Some(DateRequiredMessage)
      else if env.parse(d.date).None? then Some(DateInvalidMessage)
      else None;
    var trimmed := Strip(JavaScript, d.location);
    var location :=
      if trimmed == "" then Some(LocationRequiredMessage)
      else if |trimmed| < 2 then Some(LocationShortMessage)
      else None;
    var notes := if d.notes != "" && |d.notes| > MaxNotesLength then Some(NotesLongMessage) else None;
    FormErrors(date, location, notes)
  }

  /** `isFormValid`, which enables the submit button. */
  predicate IsFormValid(d: FormData) {
    |Strip(JavaScript, d.location)| >= 2 && d.date != "" && (d.notes == "" || |d.notes| <= MaxNotesLength)
  }

  /** A form `validateForm` accepts has its submit button enabled. */
  lemma ValidFormIsSubmittable(env: DateEnv, d: FormData)
    requires !HasErrors(ValidateForm(env, d))
    ensures IsFormValid(d)
  {
  }

  /**
   * The converse fails: the button only asks for a non-empty date, so a
   * date text that does not parse leaves it enabled while `validateForm`
   * still refuses the form.
   */
  lemma SubmittableFormMayBeInvalid()
    ensures var env := DateEnv(_ => None, _ => "", _ => "");
            var d := FormData("not a date", "Paris", "");
            IsFormValid(d) && ValidateForm(env, d).date == Some(DateInvalidMessage)
  {
    var d := FormData("not a date", "Paris", "");
    assert !IsSpace(JavaScript, 'P') && !IsSpace(JavaScript, 's');
    assert |Strip(JavaScript, d.location)| == 5;
  }

  /** Apart from the date, the button and the validator agree. */
  lemma FormValidAgreesOffDate(env: DateEnv, d: FormData)
    requires d.date != "" && env.parse(d.date).Some?
    ensures IsFormValid(d) <==> !HasErrors(ValidateForm(env, d))
  {
  }

  datatype SubmitResult = SubmitResult(success: bool, message: string, id: Option<string>)

  datatype FormState = FormState(
    data: FormData,
    display: string,              // the date text box
    selected: Option<int>,        // the date the picker shows as chosen
    calendarMonth: Option<int>,   // the month the picker shows
    calendarOpen: bool,
    errors: FormErrors,
    isSubmitting: bool,
    result: Option<SubmitResult>)

  /** The component's first render on the day `today`. */
  function Initial(env: DateEnv, today: int): FormState {
    FormState(FormData(env.forApi(today), "", ""), env.forDisplay(today), Some(today), Some(today),
              false, NoErrors, false, None)
  }

  /**
   * The canonical date always reflects the picked date: it is that date
   * formatted for the API, or "" when no date is picked.
   */
  predicate DateInSync(env: DateEnv, s: FormState) {
    match s.selected
    case Some(t) => s.data.date == env.forApi(t)
    case None => s.data.date == ""
  }

  function WithField(d: FormData, f: Field, value: string): FormData {
    match f
    case Date => d.(date := value)
    case Location => d.(location := value)
    case Notes => d.(notes := value)
  }

  function WithoutError(e: FormErrors, f: Field): FormErrors {
    match f
    case Date => e.(date := None)
    case Location => e.(location := None)
    case Notes => e.(notes := None)
  }

  /** The text fields wired to `handleInputChange`. */
  predicate IsTextField(f: Field) {
    f == Location || f == Notes
  }

  /**
   * `handleInputChange`: the named field takes the typed value and loses
   * its error; every other field, every other error and the rest of the
   * state are untouched.
   */
  function InputChange(s: FormState, f: Field, value: string): (r: FormState)
    requires IsTextField(f)
    ensures FieldValue(r.data, f) == value && ErrorOf(r.errors, f).None?
    ensures forall g :: g != f ==> FieldValue(r.data, g) == FieldValue(s.data, g)
    ensures forall g :: g != f ==> ErrorOf(r.errors, g) == ErrorOf(s.errors, g)
    ensures r.(data := s.data, errors := s.errors) == s
  {
    var data := WithField(s.data, f, value);
    if ErrorOf(s.errors, f).Some? then s.(data := data, errors := WithoutError(s.errors, f))
    else s.(data := data)
  }

  /** Typing into two different fields gives the same state in either order. */
  lemma InputChangesCommute(s: FormState, f: Field, a: string, g: Field, b: string)
    requires IsTextField(f) && IsTextField(g) && f != g
    ensures InputChange(InputChange(s, f, a), g, b) == InputChange(InputChange(s, g, b), f, a)
  {
  }

  /** Typing into a field twice leaves the state the last keystroke gives. */
  lemma InputChangeLastWins(s: FormState, f: Field, a: string, b: string)
    requires IsTextField(f)
    ensures InputChange(InputChange(s, f, a), f, b) == InputChange(s, f, b)
  {
  }

  /**
   * `handleDateInputChange`: the text box always shows what was typed; only
   * a text that parses moves the picker, sets the canonical date and
   * clears the date error.
   */
  function DateInputChange(env: DateEnv, s: FormState, text: string): (r: FormState)
    ensures env.parse(text).Some? ==>
              var t := env.parse(text).value;
              r == s.(display := text, selected := Some(t), calendarMonth := Some(t),
                      data := s.data.(date := env.forApi(t)), errors := s.errors.(date := None))
    ensures env.parse(text).None? ==> r == s.(display := text)
  {
    match env.parse(text)
    case Some(t) =>
      s.(display := text, selected := Some(t), calendarMonth := Some(t),
         data := s.data.(date := env.forApi(t)), errors := s.errors.(date := None))
    case None => s.(display := text)
  }

  /**
   * `handleDateChange`, the picker's selection (`None` when it is cleared):
   * the picked date, its display text and its API text replace the old
   * ones and the picker closes; only an actual date clears the date error.
   * The month the picker shows, the submitting flag and the last result
   * stay as they were.
   */
  function DateChange(env: DateEnv, s: FormState, date: Option<int>): (r: FormState)
    ensures DateInSync(env, r)
    ensures date.Some? ==>
              r == s.(selected := date, display := env.forDisplay(date.value),
                      data := s.data.(date := env.forApi(date.value)), calendarOpen := false,
                      errors := s.errors.(date := None))
    ensures date.None? ==>
              r == s.(selected := None, display := "", data := s.data.(date := ""), calendarOpen := false)
  {
    match date
    case Some(t) =>
      s.(selected := date, display := env.forDisplay(t), data := s.data.(date := env.forApi(t)),
         calendarOpen := false, errors := s.errors.(date := None))
    case None =>
      s.(selected := None, display := "", data := s.data.(date := ""), calendarOpen := false)
  }

  /** What `POST /weather` answers on success: `{"id": ..., "message": ...}`. */
  datatype CreatedBody = CreatedBody(id: Option<string>)

  const SubmittedMessage := "Weather request submitted successfully!"
  const SubmitFailedMessage := "Failed to submit weather request"
  const NetworkErrorMessage := "Network error: Could not connect to the server"

  /**
   * The synchronous part of `handleSubmit`. With validation errors the
   * errors are shown and nothing is sent; otherwise the form enters the
   * submitting state, clears the last result and sends its data.
   */
  function SubmitStart(env: DateEnv, s: FormState): (r: (FormState, Option<FormData>))
    ensures HasErrors(ValidateForm(env, s.data)) ==> r == (s.(errors := ValidateForm(env, s.data)), None)
    ensures !HasErrors(ValidateForm(env, s.data)) ==>
              r == (s.(isSubmitting := true, result := None), Some(s.data))
  {
    var errors := ValidateForm(env, s.data);
    if HasErrors(errors) then (s.(errors := errors), None)
    else (s.(isSubmitting := true, result := None), Some(s.data))
  }

  /**
   * The part of `handleSubmit` after the request: `response.json()` runs
   * before `response.ok` is looked at, so a body that does not parse lands
   * in the `catch` like a transport failure. `today` is the new `Date()`
   * the form resets to.
   */
  function SubmitFinish(env: DateEnv, s: FormState, outcome: HttpOutcome<CreatedBody>, today: int): (r: FormState)
    ensures !r.isSubmitting && r.result.Some?
    ensures outcome.Ok? ==>
              && r.result == Some(SubmitResult(true, SubmittedMessage, outcome.body.id))
              && r.data == FormData(env.forApi(today), "", "")
              && r == s.(result := r.result, selected := Some(today), display := env.forDisplay(today),
                         data := FormData(env.forApi(today), "", ""), errors := NoErrors, isSubmitting := false)
    ensures outcome.Failed? ==>
              r == s.(result := Some(SubmitResult(false, DetailOr(outcome.detail, SubmitFailedMessage), None)),
                      isSubmitting := false)
    ensures !outcome.Ok? && !outcome.Failed? ==>
              r == s.(result := Some(SubmitResult(false, NetworkErrorMessage, None)), isSubmitting := false)
  {
    match outcome
    case Ok(body) =>
      s.(result := Some(SubmitResult(true, SubmittedMessage, body.id)),
         selected := Some(today), display := env.forDisplay(today),
         data := FormData(env.forApi(today), "", ""), errors := NoErrors, isSubmitting := false)
    case Failed(_, detail) =>
      s.(result := Some(SubmitResult(false, DetailOr(detail, SubmitFailedMessage), None)), isSubmitting := false)
    case _ =>
      s.(result := Some(SubmitResult(false, NetworkErrorMessage, None)), isSubmitting := false)
  }

  /**
   * `handleSubmit` as one transition. An invalid form shows exactly the
   * validator's errors and changes nothing else, whatever the server would
   * have said. A valid one always leaves the submitting state: success
   * shows the new id and resets the form to today with empty text fields
   * and no errors; a failure shows the server's detail (or a fixed message)
   * and keeps what the user typed; a transport failure or an unreadable
   * body shows the network message.
   */
  function Submit(env: DateEnv, s: FormState, outcome: HttpOutcome<CreatedBody>, today: int): (r: FormState)
    ensures HasErrors(ValidateForm(env, s.data)) ==> r == s.(errors := ValidateForm(env, s.data))
    ensures !HasErrors(ValidateForm(env, s.data)) ==> !r.isSubmitting && r.result.Some?
    ensures !HasErrors(ValidateForm(env, s.data)) && outcome.Ok? ==>
              && r.result == Some(SubmitResult(true, SubmittedMessage, outcome.body.id))
              && r.data == FormData(env.forApi(today), "", "")
              && r == s.(result := r.result, selected := Some(today), display := env.forDisplay(today),
                         data := r.data, errors := NoErrors, isSubmitting := false)
              && DateInSync(env, r)
    ensures !HasErrors(ValidateForm(env, s.data)) && outcome.Failed? ==>
              r == s.(result := Some(SubmitResult(false, DetailOr(outcome.detail, SubmitFailedMessage), None)),
                      isSubmitting := false)
    ensures !HasErrors(ValidateForm(env, s.data)) && !outcome.Ok? && !outcome.Failed? ==>
              r == s.(result := Some(SubmitResult(false, NetworkErrorMessage, None)), isSubmitting := false)
  {
    var (started, request) := SubmitStart(env, s);
    if request.None? then started else SubmitFinish(env, started, outcome, today)
  }

  /** A form the validator refuses never consumes a server outcome. */
  lemma InvalidSubmitIgnoresOutcome(env: DateEnv, s: FormState, o1: HttpOutcome<CreatedBody>, o2: HttpOutcome<CreatedBody>, t1: int, t2: int)
    requires HasErrors(ValidateForm(env, s.data))
    ensures Submit(env, s, o1, t1) == Submit(env, s, o2, t2)
    ensures SubmitStart(env, s).1.None?
  {
  }

  /** Typing into a text field keeps the canonical date in step with the picked date. */
  lemma InputChangeKeepsDateInSync(env: DateEnv, s: FormState, f: Field, value: string)
    requires DateInSync(env, s) && IsTextField(f)
    ensures DateInSync(env, InputChange(s, f, value))
  {
    var r := InputChange(s, f, value);
    assert FieldValue(r.data, Date) == FieldValue(s.data, Date);
  }

  /** So does typing into the date box, whether or not the text parses. */
  lemma DateInputChangeKeepsDateInSync(env: DateEnv, s: FormState, text: string)
    requires DateInSync(env, s)
    ensures DateInSync(env, DateInputChange(env, s, text))
  {
  }

  /** So does submitting, which either keeps the date or resets it to today. */
  lemma SubmitKeepsDateInSync(env: DateEnv, s: FormState, outcome: HttpOutcome<CreatedBody>, today: int)
    requires DateInSync(env, s)
    ensures DateInSync(env, Submit(env, s, outcome, today))
  {
  }

  /** The first render starts in step. */
  lemma InitialIsInSync(env: DateEnv, today: int)
    ensures DateInSync(env, Initial(env, today))
  {
  }
}

=== FILE: weather_lookup.dfy ===
/**
 * The lookup panel (frontend/src/components/weather-lookup.tsx): fetching
 * one record by id, deleting the record shown, and the two classifiers that
 * pick the UV colour and the weather icon.
 */
module WeatherLookup {
  import opened Common
  import opened Text
  import opened Records

  datatype LookupState = LookupState(
    weatherId: string,               // the id text box
    isLoading: bool,
    record: Option<WeatherRecord>,   // the record on display
    error: Option<string>)

  const InitialLookup := LookupState("", false, None, None)

  const NotFoundMessage := "Weather data not found"
  const NetworkErrorMessage := "Network error: Could not connect to the server"
  const DeleteFailedMessage := "Failed to delete weather data"
  const DeleteNetworkErrorMessage := "Network error: Could not delete weather data"

  /**
   * The synchronous part of `handleLookup`. A blank id does nothing and
   * sends nothing. Otherwise loading starts, the old error and the old
   * record are dropped, and the trimmed id is requested.
   */
  function LookupStart(s: LookupState): (r: (LookupState, Option<string>))
    ensures AllSpace(JavaScript, s.weatherId) <==> r.1.None?
    ensures r.1.None? ==> r.0 == s
    ensures r.1.Some? ==> r.1.value == Strip(JavaScript, s.weatherId) && r.1.value != ""
    ensures r.1.Some? ==> r.0 == s.(isLoading := true, error := None, record := None)
  {
    var id := Strip(JavaScript, s.weatherId);
    if id == "" then (s, None)
    else (s.(isLoading := true, error := None, record := None), Some(id))
  }

  /**
   * The part of `handleLookup` after the request. Only the success branch
   * and the failure branch's `response.json()` can throw, and either throw
   * ends in the network message.
   */
  function LookupFinish(s: LookupState, outcome: HttpOutcome<WeatherRecord>): LookupState
  {
    match outcome
    case Ok(rec) => s.(record := Some(rec), isLoading := false)
    case Failed(_, detail) => s.(error := Some(DetailOr(detail, NotFoundMessage)), isLoading := false)
    case _ => s.(error := Some(NetworkErrorMessage), isLoading := false)
  }

  /**
   * `handleLookup` as one transition: a blank id changes nothing; otherwise
   * loading ends, the record found is shown with no error, and any failure
   * shows a message and no record, so nothing from an earlier lookup
   * survives. A non-2xx answer whose body does not parse reads as a network
   * failure.
   */
  function Lookup(s: LookupState, outcome: HttpOutcome<WeatherRecord>): (r: LookupState)
    ensures AllSpace(JavaScript, s.weatherId) ==> r == s
    ensures !AllSpace(JavaScript, s.weatherId) ==>
              && !r.isLoading
              && r.weatherId == s.weatherId
              && (r.record.Some? <==> outcome.Ok?)
              && (r.error.None? <==> outcome.Ok?)
    ensures !AllSpace(JavaScript, s.weatherId) && outcome.Ok? ==> r.record == Some(outcome.body)
    ensures !AllSpace(JavaScript, s.weatherId) && outcome.Failed? ==>
              r.error == Some(DetailOr(outcome.detail, NotFoundMessage))
    ensures !AllSpace(JavaScript, s.weatherId) && !outcome.Ok? && !outcome.Failed? ==>
              r.error == Some(NetworkErrorMessage)
  {
    var (started, request) := LookupStart(s);
    if request.None? then started else LookupFinish(started, outcome)
  }

  /** Looking up the same id twice against the same answer shows the same thing. */
  lemma LookupIdempotent(s: LookupState, outcome: HttpOutcome<WeatherRecord>)
    ensures Lookup(Lookup(s, outcome), outcome) == Lookup(s, outcome)
  {
  }

  /** The id the delete button sends: the shown record's id when it is a non-empty string. */
  function DeleteTarget(s: LookupState): Option<string> {
    if s.record.Some? && s.record.value.id.Some? && s.record.value.id.value != "" then s.record.value.id
    else None
  }

  /**
   * `handleDelete`: with no record (or no id) it does nothing. The response
   * body is never read: success clears the record, the id box and the
   * error; any non-2xx status shows one fixed message whatever the server's
   * detail; a transport failure shows its own network message.
   */
  function DeleteShown(s: LookupState, outcome: HttpOutcome<()>): (r: LookupState)
    ensures DeleteTarget(s).None? ==> r == s
    ensures DeleteTarget(s).Some? && outcome.IsOk() ==> r == s.(record := None, weatherId := "", error := None)
    ensures DeleteTarget(s).Some? && (outcome.Failed? || outcome.FailedUnparseable?) ==>
              r == s.(error := Some(DeleteFailedMessage))
    ensures DeleteTarget(s).Some? && outcome.Transport? ==> r == s.(error := Some(DeleteNetworkErrorMessage))
  {
    if DeleteTarget(s).None? then s
    else match outcome
      case Ok(_) => s.(record := None, weatherId := "", error := None)
      case OkUnparseable => s.(record := None, weatherId := "", error := None)
      case Transport => s.(error := Some(DeleteNetworkErrorMessage))
      case _ => s.(error := Some(DeleteFailedMessage))
  }

  /** A fresh panel has no id to look up and no record to delete: both buttons do nothing. */
  lemma FreshPanelSendsNothing(outcome: HttpOutcome<()>)
    ensures LookupStart(InitialLookup) == (InitialLookup, None)
    ensures DeleteShown(InitialLookup, outcome) == InitialLookup
  {
  }

  /** The server's detail and status never reach the screen after a failed delete. */
  lemma DeleteIgnoresDetail(s: LookupState, a: nat, da: Option<string>, b: nat)
    ensures DeleteShown(s, Failed(a, da)) == DeleteShown(s, FailedUnparseable(b))
  {
  }

  // ---------------------------------------------------------------------------
  // Classifiers

  datatype UvColour = Green | Yellow | Orange | Red | Purple

  /** The upper bounds of the four milder bands. */
  const UvThresholds: seq<real> := [2.0, 5.0, 7.0, 10.0]

  /** How many of `bounds` lie strictly below `uv`. */
  function CountBelow(bounds: seq<real>, uv: real): nat {
    if bounds == [] then 0 else (if bounds[0] < uv then 1 else 0) + CountBelow(bounds[1..], uv)
  }

  /**
   * `getUVIndexColor`: five bands with upper bounds 2, 5, 7 and 10, so the
   * colour's severity is the number of bounds the index exceeds.
   */
  function UvIndexColour(uv: real): (c: UvColour)
    ensures Severity(c) == CountBelow(UvThresholds, uv)
  {
    CountBelowThresholds(uv);
    if uv <= 2.0 then Green
    else if uv <= 5.0 then Yellow
    else if uv <= 7.0 then Orange
    else if uv <= 10.0 then Red
    else Purple
  }

  /** The count against the four bounds, one bound at a time. */
  lemma CountBelowThresholds(uv: real)
    ensures CountBelow(UvThresholds, uv)
            == (if 2.0 < uv then 1 else 0) + (if 5.0 < uv then 1 else 0)
             + (if 7.0 < uv then 1 else 0) + (if 10.0 < uv then 1 else 0)
  {
    var a, b, c, d := [2.0, 5.0, 7.0, 10.0], [5.0, 7.0, 10.0], [7.0, 10.0], [10.0];
    assert a[1..] == b && b[1..] == c && c[1..] == d && d[1..] == [];
    assert CountBelow(d, uv) == if 10.0 < uv then 1 else 0;
    assert CountBelow(c, uv) == (if 7.0 < uv then 1 else 0) + CountBelow(d, uv);
    assert CountBelow(b, uv) == (if 5.0 < uv then 1 else 0) + CountBelow(c, uv);
    assert CountBelow(a, uv) == (if 2.0 < uv then 1 else 0) + CountBelow(b, uv);
  }

  /** The severity rank of a band. */
  function Severity(c: UvColour): nat {
    match c
    case Green => 0
    case Yellow => 1
    case Orange => 2
    case Red => 3
    case Purple => 4
  }

  /** A higher index never gets a milder colour. */
  lemma UvColourMonotone(a: real, b: real)
    requires a <= b
    ensures Severity(UvIndexColour(a)) <= Severity(UvIndexColour(b))
  {
  }

  /** Each band is exactly a half-open interval of the index. */
  lemma UvColourBands(uv: real)
    ensures UvIndexColour(uv) == Green <==> uv <= 2.0
    ensures UvIndexColour(uv) == Yellow <==> 2.0 < uv <= 5.0
    ensures UvIndexColour(uv) == Orange <==> 5.0 < uv <= 7.0
    ensures UvIndexColour(uv) == Red <==> 7.0 < uv <= 10.0
    ensures UvIndexColour(uv) == Purple <==> 10.0 < uv
  {
  }

  datatype WeatherIcon = Sun | Cloud | Droplets | Thermometer

  /**
   * `getWeatherIcon`: on the lower-cased description, "sunny" or "clear"
   * wins over "cloud", which wins over "rain"; anything else gets the
   * thermometer.
   */
  function WeatherIconFor(description: string): (icon: WeatherIcon)
    ensures var d := Lower(description);
            && (icon == Sun <==> Contains(d, "sunny") || Contains(d, "clear"))
            && (icon == Cloud <==> !Contains(d, "sunny") && !Contains(d, "clear") && Contains(d, "cloud"))
            && (icon == Droplets <==> !Contains(d, "sunny") && !Contains(d, "clear") && !Contains(d, "cloud") && Contains(d, "rain"))
  {
    var d := Lower(description);
    if Contains(d, "sunny") || Contains(d, "clear") then Sun
    else if Contains(d, "cloud") then Cloud
    else if Contains(d, "rain") then Droplets
    else Thermometer
  }

  /** The icon does not depend on letter case. */
  lemma WeatherIconIgnoresCase(description: string)
    ensures WeatherIconFor(Lower(description)) == WeatherIconFor(description)
  {
    LowerIdempotent(description);
  }

  /**
   * The five descriptions the backend's mock data draws from get the icon
   * their wording suggests; "Partly cloudy" and "Cloudy" get the cloud.
   */
  lemma MockDescriptionIcons()
    ensures WeatherIconFor("Sunny") == Sun
    ensures WeatherIconFor("Clear") == Sun
    ensures WeatherIconFor("Partly cloudy") == Cloud
    ensures WeatherIconFor("Cloudy") == Cloud
    ensures WeatherIconFor("Light rain") == Droplets
  {
    SunnyAndClearAreSun();
    PartlyCloudy();
    CloudyIsCloud();
    LightRain();
  }

  lemma SunnyAndClearAreSun()
    ensures WeatherIconFor("Sunny") == Sun
    ensures WeatherIconFor("Clear") == Sun
  {
    assert Lower("Sunny") == "sunny";
    assert OccursAt("sunny", "sunny", 0);
    assert Lower("Clear") == "clear";
    assert OccursAt("clear", "clear", 0);
  }

  lemma CloudyIsCloud()
    ensures WeatherIconFor("Cloudy") == Cloud
  {
    var d := "cloudy";
    assert Lower("Cloudy") == d;
    assert d[0..5] == "cloud";
    assert OccursAt(d, "cloud", 0);
    MissingCharNotContained(d, "sunny", 2);
    MissingCharNotContained(d, "clear", 2);
  }

  lemma PartlyCloudy()
    ensures WeatherIconFor("Partly cloudy") == Cloud
  {
    var d := "partly cloudy";
    assert Lower("Partly cloudy") == d;
    assert d[7..12] == "cloud";
    assert OccursAt(d, "cloud", 7);
    MissingCharNotContained(d, "sunny", 2);
    MissingCharNotContained(d, "clear", 2);
  }

  lemma LightRain()
    ensures WeatherIconFor("Light rain") == Droplets
  {
    var d := "light rain";
    assert Lower("Light rain") == d;
    assert d[6..10] == "rain";
    assert OccursAt(d, "rain", 6);
    MissingCharNotContained(d, "sunny", 0);
    MissingCharNotContained(d, "clear", 0);
    MissingCharNotContained(d, "cloud", 0);
  }

  /** Precedence: a description naming both clouds and rain gets the cloud. */
  lemma CloudBeatsRain()
    ensures WeatherIconFor("Rain clouds") == Cloud
  {
    var d := "rain clouds";
    assert Lower("Rain clouds") == d;
    assert d[5..10] == "cloud";
    assert OccursAt(d, "cloud", 5);
    MissingCharNotContained(d, "sunny", 4);
    MissingCharNotContained(d, "clear", 2);
  }
}

=== FILE: weather_store.dfy ===
/**
 * The backend's record store `weather_storage` and its four endpoints
 * (backend/main.py): create, get by id, list newest first, delete by id,
 * plus the sample record seeded into an empty store at start-up.
 *
 * The store is a Python `dict`, so besides the key-to-record map it keeps
 * the insertion order of its keys, which decides the order of records with
 * equal timestamps in a listing.
 */
module WeatherStore {
  import opened Common
  import opened Text
  import opened Records
  import opened Ordering
  import opened RequestValidation

  datatype Store = Store(records: map<string, WeatherRecord>, order: seq<string>)

  /** The order lists every key of the map exactly once. */
  ghost predicate Valid(s: Store) {
    && (forall i, j :: 0 <= i < j < |s.order| ==> s.order[i] != s.order[j])
    && (forall k :: k in s.records <==> k in s.order)
  }

  const EmptyStore := Store(map[], [])

  /** An endpoint's answer as the server sends it. */
  datatype Reply<+T> =
    | Done(value: T)                          // 2xx with the handler's value as JSON
    | Refused(status: nat, detail: string)    // an HTTPException: JSON {"detail": ...}
    | Unprocessable(errors: seq<FieldError>)  // 422 from request validation
    | ResponseInvalid                         // the value fails the declared response model: plain-text 500

  /** `weather_storage[key] = rec`: a new key goes last, an existing key keeps its place. */
  function Put(s: Store, key: string, rec: WeatherRecord): (r: Store)
    requires Valid(s)
    ensures Valid(r)
    ensures r.records == s.records[key := rec]
    ensures key in s.records ==> r.order == s.order
    ensures key !in s.records ==> r.order == s.order + [key]
  {
    if key in s.records then Store(s.records[key := rec], s.order)
    else Store(s.records[key := rec], s.order + [key])
  }

  /** `order` without `key`, the rest in their order. */
  function Without(order: seq<string>, key: string): (r: seq<string>)
    requires forall i, j :: 0 <= i < j < |order| ==> order[i] != order[j]
    ensures forall k :: k in r <==> k in order && k != key
    ensures forall i, j :: 0 <= i < j < |r| ==> r[i] != r[j]
    ensures key !in order ==> r == order
    ensures forall p :: 0 <= p < |order| && order[p] == key ==> r == order[..p] + order[p + 1..]
  {
    if order == [] then []
    else
      FirstNotInRest(order);
      if order[0] == key then Without(order[1..], key)
      else [order[0]] + Without(order[1..], key)
  }

  /** In a duplicate-free sequence the head does not recur in the tail. */
  lemma FirstNotInRest(order: seq<string>)
    requires order != []
    requires forall i, j :: 0 <= i < j < |order| ==> order[i] != order[j]
    ensures order[0] !in order[1..]
  {
    forall j | 0 <= j < |order| - 1 ensures order[1..][j] != order[0] {
      assert order[1..][j] == order[j + 1];
    }
  }

  /** `del weather_storage[key]`. */
  function Remove(s: Store, key: string): (r: Store)
    requires Valid(s)
    ensures Valid(r)
    ensures r.records == s.records - {key}
    ensures r.order == Without(s.order, key)
  {
    Store(s.records - {key}, Without(s.order, key))
  }

  /** The records listed by `order`. */
  function RecordsIn(records: map<string, WeatherRecord>, order: seq<string>): (r: seq<WeatherRecord>)
    requires forall k :: k in order ==> k in records
    ensures |r| == |order|
    ensures forall i :: 0 <= i < |order| ==> r[i] == records[order[i]]
  {
    if order == [] then [] else [records[order[0]]] + RecordsIn(records, order[1..])
  }

  /** `weather_storage.values()`: the records in insertion order. */
  function Values(s: Store): seq<WeatherRecord>
    requires Valid(s)
  {
    RecordsIn(s.records, s.order)
  }

  /** A duplicate-free sequence has as many distinct elements as entries. */
  lemma {:induction false} DistinctCount(order: seq<string>)
    requires forall i, j :: 0 <= i < j < |order| ==> order[i] != order[j]
    ensures |set k | k in order| == |order|
  {
    if order != [] {
      var rest := order[1..];
      DistinctCount(rest);
      assert (set k | k in order) == {order[0]} + (set k | k in rest);
      FirstNotInRest(order);
    }
  }

  /** A valid store has as many records as its order has keys. */
  lemma SizeOfValid(s: Store)
    requires Valid(s)
    ensures |s.records| == |s.order|
  {
    DistinctCount(s.order);
    assert s.records.Keys == set k | k in s.order;
  }

  // ---------------------------------------------------------------------------
  // GET /weather/{weather_id}

  function NotFoundDetail(id: string): string {
    "Weather data with ID '" + id + "' not found"
  }

  /** `get_weather_data`: the stored record, or 404 naming the id. */
  function GetWeatherData(s: Store, id: string): (r: Reply<WeatherRecord>)
    ensures id in s.records <==> r.Done?
    ensures r.Done? ==> r.value == s.records[id]
    ensures !r.Done? ==> r == Refused(404, NotFoundDetail(id))
  {
    if id in s.records then Done(s.records[id]) else Refused(404, NotFoundDetail(id))
  }

  /**
   * The response model `WeatherDataResponse`: `id`, `notes` and `created_at`
   * must be strings. A handler value that lacks one is not sent; FastAPI
   * answers with a plain-text 500 instead.
   */
  predicate ConformsToResponseModel(rec: WeatherRecord) {
    rec.id.Some? && rec.notes.Some? && rec.createdAt.Some?
  }

  /** `GET /weather/{weather_id}` as the client receives it. */
  function GetEndpoint(s: Store, id: string): (r: Reply<WeatherRecord>)
    ensures r.Done? <==> id in s.records && ConformsToResponseModel(s.records[id])
    ensures r.Done? ==> r.value == s.records[id]
    ensures id !in s.records ==> r == Refused(404, NotFoundDetail(id))
    ensures id in s.records && !ConformsToResponseModel(s.records[id]) ==> r == ResponseInvalid
  {
    match GetWeatherData(s, id)
    case Done(rec) => if ConformsToResponseModel(rec) then Done(rec) else ResponseInvalid
    case other => other
  }

  // ---------------------------------------------------------------------------
  // GET /weather

  /**
   * `list_weather_data`: every stored record once, newest `created_at`
   * first (a missing timestamp counts as ""), ties in insertion order.
   */
  function ListWeatherData(s: Store): (r: seq<WeatherRecord>)
    requires Valid(s)
    ensures NewestFirst(r)
    ensures multiset(r) == multiset(Values(s))
    ensures |r| == |s.records|
    ensures forall k :: k in s.records ==> s.records[k] in r
    ensures forall x :: x in r ==> exists k :: k in s.records && s.records[k] == x
  {
    var values := Values(s);
    var r := SortNewestFirst(values);
    SizeOfValid(s);
    assert |r| == |s.records| by {
      assert |multiset(r)| == |multiset(values)|;
    }
    assert forall k :: k in s.records ==> s.records[k] in r by {
      forall k | k in s.records ensures s.records[k] in r {
        var i :| 0 <= i < |s.order| && s.order[i] == k;
        assert values[i] == s.records[k];
        assert s.records[k] in multiset(values);
      }
    }
    assert forall x :: x in r ==> exists k :: k in s.records && s.records[k] == x by {
      forall x | x in r ensures exists k :: k in s.records && s.records[k] == x {
        assert x in multiset(values);
        var i :| 0 <= i < |values| && values[i] == x;
        assert s.order[i] in s.records;
      }
    }
    r
  }

  /** Records with the same timestamp are listed in the order they were stored. */
  lemma ListKeepsInsertionOrderOfTies(s: Store, stamp: string)
    requires Valid(s)
    ensures WithKey(ListWeatherData(s), stamp) == WithKey(Values(s), stamp)
  {
    SortIsStable(Values(s), stamp);
  }

  /** `GET /weather`: the list, unless some record fails the response model. */
  function ListEndpoint(s: Store): (r: Reply<seq<WeatherRecord>>)
    requires Valid(s)
    ensures r.Done? <==> forall k :: k in s.records ==> ConformsToResponseModel(s.records[k])
    ensures r.Done? ==> r.value == ListWeatherData(s)
    ensures !r.Done? ==> r == ResponseInvalid
  {
    var items := ListWeatherData(s);
    if forall x :: x in items ==> ConformsToResponseModel(x) then Done(items) else ResponseInvalid
  }

  // ---------------------------------------------------------------------------
  // DELETE /weather/{weather_id}

  function DeletedMessage(id: string): string {
    "Weather data with ID '" + id + "' deleted successfully"
  }

  /** `delete_weather_data`: removes the record, or answers 404 and keeps the store. */
  function DeleteWeatherData(s: Store, id: string): (r: (Store, Reply<string>))
    requires Valid(s)
    ensures Valid(r.0)
    ensures id in s.records <==> r.1.Done?
    ensures id in s.records ==> r.0.records == s.records - {id} && r.1 == Done(DeletedMessage(id))
    ensures id in s.records ==> r.0.order == Without(s.order, id)
    ensures id !in s.records ==> r.0 == s && r.1 == Refused(404, NotFoundDetail(id))
  {
    if id !in s.records then (s, Refused(404, NotFoundDetail(id)))
    else (Remove(s, id), Done(DeletedMessage(id)))
  }

  /** After a delete the id no longer resolves, and every other record still does, unchanged. */
  lemma DeleteThenGet(s: Store, id: string, other: string)
    requires Valid(s) && id in s.records
    ensures GetWeatherData(DeleteWeatherData(s, id).0, id) == Refused(404, NotFoundDetail(id))
    ensures other != id ==> GetWeatherData(DeleteWeatherData(s, id).0, other) == GetWeatherData(s, other)
  {
  }

  // ---------------------------------------------------------------------------
  // POST /weather

  /** What the weather provider's JSON body turned out to be. */
  datatype ProviderBody =
    | NotJson(reason: string)             // response.json() raised
    | ErrorInfo(info: Option<string>)     // {"error": {...}}, with or without "info"
    | Observation(data: WeatherData)      // the "current"/"location" members, already extracted
    | Malformed(reason: string)           // extraction raised (a missing list element, a non-dict member)

  /** How the call to the weather provider went. */
  datatype Provider =
    | NoApiKey(mock: WeatherData)         // no WEATHERSTACK_API_KEY: random mock data
    | TimedOut                            // requests.Timeout
    | RequestFailed(reason: string)       // any other requests.RequestException
    | Answered(status: nat, body: ProviderBody)

  /** An exception raised inside the create handler's `try`. */
  datatype Raised =
    | HttpError(status: nat, detail: string)
    | Timeout
    | RequestException(reason: string)
    | OtherException(reason: string)

  const UnavailableDetail := "Weather service is currently unavailable"

  /** The provider's weather data, or the exception the handler raises while getting it. */
  function ObtainWeather(p: Provider): (r: Result<WeatherData, Raised>)
    ensures r.Pass? <==> p.NoApiKey? || (p.Answered? && p.status == 200 && p.body.Observation?)
    ensures r.Fail? && r.error.Timeout? <==> p.TimedOut?
    ensures r.Fail? && r.error.RequestException? <==> p.RequestFailed? || (p.Answered? && p.status == 200 && p.body.NotJson?)
    ensures p.Answered? && p.status != 200 ==> r == Fail(HttpError(503, UnavailableDetail))
    ensures r.Fail? && r.error.HttpError? ==> r.error.status in {400, 500, 503}
    ensures r.Pass? ==> r.value == (if p.NoApiKey? then p.mock else p.body.data)
    ensures p.Answered? && p.status == 200 && p.body.Malformed? ==> r == Fail(OtherException(p.body.reason))
    ensures p.Answered? && p.status == 200 && p.body.ErrorInfo? ==>
              var text := p.body.info.GetOr("Unknown error");
              r == Fail(if Contains(text, "API key") then HttpError(500, "Weather service configuration error")
                        else HttpError(400, "Location not found: " + text))
  {
    match p
    case NoApiKey(mock) => Pass(mock)
    case TimedOut => Fail(Timeout)
    case RequestFailed(reason) => Fail(RequestException(reason))
    case Answered(status, body) =>
      if status != 200 then Fail(HttpError(503, UnavailableDetail))
      else match body
        // JSONDecodeError derives from requests.RequestException
        case NotJson(reason) => Fail(RequestException(reason))
        case ErrorInfo(info) =>
          var text := info.GetOr("Unknown error");
          if Contains(text, "API key") then Fail(HttpError(500, "Weather service configuration error"))
          else Fail(HttpError(400, "Location not found: " + text))
        case Observation(data) => Pass(data)
        case Malformed(reason) => Fail(OtherException(reason))
  }

  /**
   * An error payload from the provider is a configuration error (500) when
   * its info mentions "API key" and an unknown location (400) otherwise;
   * a payload without info counts as "Unknown error".
   */
  lemma ErrorPayloadStatus(info: Option<string>)
    ensures var e := ObtainWeather(Answered(200, ErrorInfo(info)));
            && e.Fail? && e.error.HttpError?
            && (e.error.status == 500 <==> Contains(info.GetOr("Unknown error"), "API key"))
            && (e.error.status == 400 <==> !Contains(info.GetOr("Unknown error"), "API key"))
  {
  }

  /** A payload without info is reported as an unknown location. */
  lemma ErrorPayloadWithoutInfo()
    ensures ObtainWeather(Answered(200, ErrorInfo(None))) == Fail(HttpError(400, "Location not found: " + "Unknown error"))
  {
    var info: Option<string> := None;
    assert info.GetOr("Unknown error") == "Unknown error";
    MissingCharNotContained("Unknown error", "API key", 0);
  }

  /** `str(e)` of an HTTPException: "<status>: <detail>". */
  function ExceptionText(status: nat, detail: string): string {
    Decimal(status) + ": " + detail
  }

  const InternalErrorPrefix := "Internal server error: "

  /**
   * The handler's `except` clauses, in order: a timeout becomes 504, any
   * other `requests` failure 503, and everything else, the handler's own
   * HTTPExceptions included, 500 with the exception's text.
   */
  function Translate(e: Raised): (r: Reply<string>)
    ensures r.Refused?
    ensures r.status == 504 <==> e.Timeout?
    ensures r.status == 503 <==> e.RequestException?
    ensures r.status == 500 <==> e.HttpError? || e.OtherException?
    ensures e.HttpError? || e.OtherException? ==> InternalErrorPrefix <= r.detail
  {
    match e
    case Timeout => Refused(504, "Weather service request timed out")
    case RequestException(reason) => Refused(503, "Weather service error: " + reason)
    case HttpError(status, detail) => Refused(500, InternalErrorPrefix + ExceptionText(status, detail))
    case OtherException(reason) => Refused(500, InternalErrorPrefix + reason)
  }

  /** The record the handler stores for a validated request. */
  function NewRecord(id: string, req: WeatherRequest, data: WeatherData, now: string): WeatherRecord {
    WeatherRecord(Some(id), req.date, req.location, req.notes, data, Some(now))
  }

  /**
   * `create_weather_request` for a request that passed validation. `freshId`
   * is the value `uuid4()` produced and `now` the value of
   * `datetime.now().isoformat()`. The record is stored only once weather
   * data is in hand, so every failure leaves the store as it was.
   */
  function CreateWeatherRequest(s: Store, req: WeatherRequest, p: Provider, freshId: string, now: string)
    : (r: (Store, Reply<string>))
    requires Valid(s)
    ensures Valid(r.0)
    ensures r.1.Done? <==> ObtainWeather(p).Pass?
    ensures r.1.Done? ==> r.1.value == freshId
    ensures r.1.Done? ==> r.0.records == s.records[freshId := NewRecord(freshId, req, ObtainWeather(p).value, now)]
    ensures !r.1.Done? ==> r.0 == s && r.1.Refused?
  {
    match ObtainWeather(p)
    case Pass(data) => (Put(s, freshId, NewRecord(freshId, req, data, now)), Done(freshId))
    case Fail(e) => (s, Translate(e))
  }

  /**
   * With a key not yet in use, a successful create adds exactly that key,
   * last in insertion order, under a record that carries it as its id; all
   * other entries stay as they were.
   */
  lemma CreateAddsOneRecord(s: Store, req: WeatherRequest, p: Provider, freshId: string, now: string)
    requires Valid(s) && freshId !in s.records
    requires CreateWeatherRequest(s, req, p, freshId, now).1.Done?
    ensures var s' := CreateWeatherRequest(s, req, p, freshId, now).0;
            && s'.records.Keys == s.records.Keys + {freshId}
            && |s'.records| == |s.records| + 1
            && s'.order == s.order + [freshId]
            && s'.records[freshId].id == Some(freshId)
            && (forall k :: k in s.records ==> s'.records[k] == s.records[k])
  {
  }

  /** A provider timeout is reported as 504. */
  lemma CreateTimeoutIs504(s: Store, req: WeatherRequest, freshId: string, now: string)
    requires Valid(s)
    ensures CreateWeatherRequest(s, req, TimedOut, freshId, now) == (s, Refused(504, "Weather service request timed out"))
  {
  }

  /**
   * Any other `requests` failure, an unparseable provider body included, is
   * reported as 503 "Weather service error: " followed by the failure's text.
   */
  lemma CreateRequestFailureIs503(s: Store, req: WeatherRequest, p: Provider, freshId: string, now: string)
    requires Valid(s)
    requires p.RequestFailed? || (p.Answered? && p.status == 200 && p.body.NotJson?)
    ensures var reason := if p.RequestFailed? then p.reason else p.body.reason;
            CreateWeatherRequest(s, req, p, freshId, now) == (s, Refused(503, "Weather service error: " + reason))
  {
  }

  /**
   * The handler's own 503 for a provider status other than 200 is caught by
   * the generic `except` and re-raised as a 500 whose detail embeds it.
   */
  lemma CreateProviderStatusIs500(s: Store, req: WeatherRequest, status: nat, body: ProviderBody, freshId: string, now: string)
    requires Valid(s) && status != 200
    ensures CreateWeatherRequest(s, req, Answered(status, body), freshId, now)
            == (s, Refused(500, InternalErrorPrefix + ("503" + ": " + UnavailableDetail)))
  {
    var e := HttpError(503, UnavailableDetail);
    assert ObtainWeather(Answered(status, body)) == Fail(e);
    UnavailableText();
  }

  lemma UnavailableText()
    ensures Translate(HttpError(503, UnavailableDetail))
            == Refused(500, InternalErrorPrefix + ("503" + ": " + UnavailableDetail))
  {
    assert DigitChar(5) == '5' && DigitChar(0) == '0' && DigitChar(3) == '3';
    assert Decimal(5) == "5";
    assert Decimal(50) == "50";
    assert Decimal(503) == "503";
  }

  /**
   * Every failure that is neither a timeout nor a `requests` failure, the
   * 500 and 400 HTTPExceptions for a provider error payload included,
   * surfaces as 500 with a detail starting "Internal server error: ".
   */
  lemma CreateOtherFailuresAre500(s: Store, req: WeatherRequest, p: Provider, freshId: string, now: string)
    requires Valid(s)
    requires p.Answered? && (p.status != 200 || p.body.ErrorInfo? || p.body.Malformed?)
    ensures var r := CreateWeatherRequest(s, req, p, freshId, now);
            && r.0 == s
            && r.1.Refused? && r.1.status == 500
            && |InternalErrorPrefix| <= |r.1.detail|
            && r.1.detail[..|InternalErrorPrefix|] == InternalErrorPrefix
  {
    var e := ObtainWeather(p);
    assert e.Fail? && (e.error.HttpError? || e.error.OtherException?);
    var d := Translate(e.error).detail;
    var rest := if e.error.HttpError? then ExceptionText(e.error.status, e.error.detail) else e.error.reason;
    assert d == InternalErrorPrefix + rest;
    assert d[..|InternalErrorPrefix|] == InternalErrorPrefix;
  }

  /**
   * `POST /weather`: field validation first (422 with every failing field's
   * message), then the handler. Only a 201 changes the store.
   */
  function PostWeather(s: Store, body: WeatherRequest, dateOk: string -> bool, p: Provider, freshId: string, now: string)
    : (r: (Store, Reply<string>))
    requires Valid(s)
    ensures Valid(r.0)
    ensures !r.1.Done? ==> r.0 == s
    ensures r.1.Done? ==> ValidateRequest(body, dateOk).Pass? && ObtainWeather(p).Pass?
    ensures r.1.Done? ==> freshId in r.0.records && r.0.records[freshId].location == Strip(Python, body.location)
    ensures ValidateRequest(body, dateOk).Fail? ==> r.1 == Unprocessable(ValidateRequest(body, dateOk).error)
    ensures ValidateRequest(body, dateOk).Pass? ==>
              r == CreateWeatherRequest(s, ValidateRequest(body, dateOk).value, p, freshId, now)
    ensures ValidateRequest(body, dateOk).Pass? && ObtainWeather(p).Pass? ==> r.1 == Done(freshId)
  {
    var v := ValidateRequest(body, dateOk);
    if v.Fail? then (s, Unprocessable(v.error))
    else
      var r := CreateWeatherRequest(s, v.value, p, freshId, now);
      assert r.1.Done? ==> r.0.records[freshId] == NewRecord(freshId, v.value, ObtainWeather(p).value, now);
      r
  }

  // ---------------------------------------------------------------------------
  // Start-up seeding

  const SampleId := "sample-123"

  const SampleWeather := WeatherData(
    Some(45.0), Some("Partly cloudy"), Some(65.0), Some(12.0), Some(1013.0), Some(10.0),
    Some(42.0), Some(3.0), Some(0.0), Some(60.0), None, None, None)

  /** The sample dictionary as the source writes it: it has no "id" key. */
  function SampleRecordAsWritten(now: string): WeatherRecord {
    WeatherRecord(None, "2024-01-15", "New York", Some("Sample weather data for testing"), SampleWeather, Some(now))
  }

  /** The sample with the "id" key every record created through the API carries. */
  function SampleRecord(now: string): WeatherRecord {
    SampleRecordAsWritten(now).(id := Some(SampleId))
  }

  /** Seeding as written: an empty store receives the sample under "sample-123". */
  function SeedAsWritten(s: Store, now: string): (r: Store)
    requires Valid(s)
    ensures Valid(r)
    ensures |s.records| == 0 ==> r.records == map[SampleId := SampleRecordAsWritten(now)]
    ensures |s.records| != 0 ==> r == s
  {
    if |s.records| == 0 then Put(s, SampleId, SampleRecordAsWritten(now)) else s
  }

  /** Seeding with the sample's "id" key filled in. */
  function Seed(s: Store, now: string): (r: Store)
    requires Valid(s)
    ensures Valid(r)
    ensures |s.records| == 0 ==> r.records == map[SampleId := SampleRecord(now)] && r.order == [SampleId]
    ensures |s.records| != 0 ==> r == s
  {
    if |s.records| == 0 then
      SizeOfValid(s);
      Put(s, SampleId, SampleRecord(now))
    else s
  }

  /**
   * Every record is stored under its own id and conforms to the response
   * model, so both GET endpoints can send it.
   */
  ghost predicate Servable(s: Store) {
    forall k :: k in s.records ==> s.records[k].id == Some(k) && ConformsToResponseModel(s.records[k])
  }

  /**
   * As written, the seeded sample cannot be sent: looking it up and listing
   * the store both end in a plain-text 500, although the sample is there.
   */
  lemma SeedAsWrittenIsUnservable(now: string)
    ensures var s := SeedAsWritten(EmptyStore, now);
            && SampleId in s.records
            && GetEndpoint(s, SampleId) == ResponseInvalid
            && ListEndpoint(s) == ResponseInvalid
  {
    var s := SeedAsWritten(EmptyStore, now);
    assert !ConformsToResponseModel(s.records[SampleId]);
  }

  /** The corrected seed keeps a servable store servable, and the sample can be looked up. */
  lemma SeedIsServable(s: Store, now: string)
    requires Valid(s) && Servable(s)
    ensures Servable(Seed(s, now))
    ensures |s.records| == 0 ==> GetEndpoint(Seed(s, now), SampleId) == Done(SampleRecord(now))
    ensures ListEndpoint(Seed(s, now)).Done?
  {
  }

  /** Creating a record whose notes are a string keeps the store servable. */
  lemma CreateKeepsServable(s: Store, req: WeatherRequest, p: Provider, freshId: string, now: string)
    requires Valid(s) && Servable(s) && req.notes.Some?
    ensures Servable(CreateWeatherRequest(s, req, p, freshId, now).0)
  {
  }

  /** Deleting keeps the store servable. */
  lemma DeleteKeepsServable(s: Store, id: string)
    requires Valid(s) && Servable(s)
    ensures Servable(DeleteWeatherData(s, id).0)
  {
  }
}
